=== FILE: README.md ===
# Jira automation scripts, modelled in Dafny

This project models the decision logic of a set of Python scripts that drive a
Jira Cloud site through its REST API.

The centre is `JiraAutomation` in `jira_automation_rules.py`, which has five
automation rules:

- assign an issue to its reporter;
- move an assigned issue to "In Progress";
- comment on a status change;
- label an issue after its type;
- comment when the priority is raised.

Each rule fetches the issue (the priority rule only when the new priority
reaches its threshold), decides, sends at most one mutating request and
returns a boolean. Around the rules sit the pure pieces of the interactive
scripts:

- the answer parsers and the description/label/payload assembly of the issue
  creator;
- the menu selection of the transition script;
- the count clamp and numbering of the bulk creator;
- the patch assembly of the updater;
- the identity scrubbing of the automation-rule export.

## How the model is built

- Each rule is a pure function. It takes what the tracker answers and returns
  a `RuleRun`: the abstract requests sent, in order, and the boolean the method
  returns. The requests are `GetIssue`, `PutFields(patch)`, `GetTransitions`,
  `PostTransition(id)` and `PostComment(text)`.
- `_make_request` either returns a response or, when `requests` raises,
  `None`. Its answer is therefore an `Option`: `Option<Reply<Issue>>` for the
  issue fetch, `Option<Reply<seq<Transition>>>` for the transition listing, and
  `Option<int>` for the status of a mutation. The model has no network; these
  answers are parameters.
- The issue snapshot (`Tracker.Issue`) keeps only the fields the rules read:
  - status name;
  - assignee;
  - reporter account id;
  - issue-type name;
  - labels;
  - summary.

  Missing keys take the defaults the code's `.get` calls give them.
- Interactive loops (`get_yes_no`, `get_choice`, `get_input` with
  `required=True`, and the description prompt) become functions of the finite
  sequence of lines typed. A re-prompt moves on to the next line. Running out
  of lines is `None`; this is where `input()` would raise EOFError.
  `Prompts.Ask` is the shared loop.
- The scripts that call `requests` directly (transition, update) take the
  status code as a plain `int`: their calls are not wrapped in a handler.
- Timestamps (`datetime.now()`) are an opaque string parameter.

What the code does, and so what the model does:

- Each rule that needs the issue fetches it itself. The menu runs one rule per
  choice.
- A rule returns only a boolean. Some early exits return True: an unmapped
  type, a label already present, a settled status, and a priority below the
  threshold. Others return False: a failed fetch, no reporter, no assignee, no
  matching transition.
- The label rule appends the new label to the existing list after a
  case-sensitive membership test. The append keeps a duplicate-free list
  duplicate-free (`AutomationRules.AutoLabelKeepsLabelsDistinct`).
- The status-change rule returns False when its fetch fails.
- The transition script indexes the list the way Python does. Any integer
  from `1 - len` to `len` is accepted, so "0" selects the last transition and
  "-k" the one k + 1 places from the end.

## Model

| member | source | states |
|---|---|---|
| AutomationRules.AssignPatch | jira_automation_rules.py:114-120 | the reassignment patch carries exactly one field, `assignee`, holding the given account id |
| AutomationRules.AssignToReporter | jira_automation_rules.py:98-132 | no PUT and False when the fetch fails or the reporter has no non-empty accountId. Otherwise exactly one PUT whose only field is the reporter's accountId, and True iff its status is exactly 204 |
| AutomationRules.ChosenTransition | jira_automation_rules.py:176-195 | a transition is chosen iff the listing succeeded, some transition is a start-work transition, and the first such one has a non-empty id. The chosen id is that transition's id |
| AutomationRules.FirstStart | jira_automation_rules.py:185-190 | finds the first transition in list order whose lowercased name contains "progress" or equals "start": no earlier one matches, and None only when none matches |
| AutomationRules.AutoTransition | jira_automation_rules.py:156-214 | a failed fetch or a missing assignee gives False with no listing and no POST, for every status. A lowercased status equal to "in progress", "done" or "closed" gives True with no listing. The POST happens iff the listing succeeds and the first match has an id, and it carries that id. True after the POST iff status 204. A failed listing or no usable match gives False after exactly the issue fetch and the listing, with nothing sent |
| AutomationRules.TransitionIsFirstMatch | jira_automation_rules.py:185-204 | any transition the rule posts is a start-work transition of the listing, and no start-work transition is listed before it |
| AutomationRules.AssigneeName | jira_automation_rules.py:246-247 | the assignee's display name. "Unassigned" when there is no assignee, or when the assignee has no display name |
| AutomationRules.StatusNotice | jira_automation_rules.py:250-272 | the notice text contains the old status, the new status, the assignee name and the timestamp |
| AutomationRules.NotifyStatusChange | jira_automation_rules.py:239-290 | a failed fetch gives False with no comment. Otherwise exactly one comment POST whose text contains both statuses, the assignee name (or "Unassigned") and the timestamp, and True iff its status is exactly 201 |
| AutomationRules.LabelFor | jira_automation_rules.py:320-333 | a label exists iff the lowercased type is one of the six table entries. bug gives "bug", story "feature", task "task", epic "epic", sub-task "subtask" and improvement "enhancement" |
| AutomationRules.AutoLabel | jira_automation_rules.py:313-361 | a failed fetch gives False. An unmapped type or an already present label gives True with no PUT. Otherwise exactly one PUT whose only field is `labels` = the existing labels in order followed by the new one, and True iff status 204 |
| AutomationRules.AutoLabelIdempotent | jira_automation_rules.py:339-349 | running the rule again on the issue with the PUT's labels issues no PUT and returns True |
| AutomationRules.AutoLabelKeepsLabelsDistinct | jira_automation_rules.py:339-344 | if the existing labels have no duplicates, neither does the list the PUT sends |
| AutomationRules.Marker | jira_automation_rules.py:408 | red marker exactly for critical, blocker and highest; orange exactly for high |
| AutomationRules.PriorityNotice | jira_automation_rules.py:406-420 | the alert starts with the marker and contains both priorities, the assignee name, the summary and the timestamp |
| AutomationRules.PriorityAlert | jira_automation_rules.py:387-439 | a lowercased new priority outside {high, highest, critical, blocker} gives True with zero requests, not even a fetch. A comment is posted iff the priority is high and the fetch succeeds. The comment starts with the right marker and carries the values above, and the result is True iff status 201 |
| RuleScenarios.EachRuleMutatesAtMostOnce | jira_automation_rules.py:80-439 | every rule sends at most one mutating request, and the status-change rule sends exactly one after a successful fetch |
| RuleScenarios.UnassignedIsNotTransitioned | jira_automation_rules.py:164-168 | an unassigned "To Do" issue gives False after the fetch alone |
| RuleScenarios.StartProgressApplied | jira_automation_rules.py:185-208 | an assigned "To Do" issue offered "Start Progress" with id 11 is moved by posting transition 11, and the rule returns True |
| RuleScenarios.SettledIsEqualityNotSubstring | jira_automation_rules.py:171-173 | a status of "In Progress Review" is not settled, so the transitions are listed |
| RuleScenarios.ReassignToU1 | jira_automation_rules.py:105-126 | an issue reported by u1 is reassigned by one PUT assigning u1 |
| RuleScenarios.MediumPrioritySendsNothing | jira_automation_rules.py:387-391 | raising the priority to "Medium" sends no request and returns True |
| RuleScenarios.BugLabelledOnce | jira_automation_rules.py:333-353 | a Bug with no labels gets a PUT with ["bug"], and after that a second run sends no PUT |
| Tracker.OnlyLastMutates | jira_automation_rules.py:122-124 | a trace whose only possible mutation is its last request has at most one mutation |
| Text.ContainsIff | jira_automation_rules.py:188 | the substring test holds iff the needle occurs at some position of the name |
| Text.JoinSplit | createNewIssue.py:140 | joining the pieces of a split with the separator gives back the string |
| Text.SplitJoin | createNewIssue.py:282 | splitting a join of separator-free pieces gives back the pieces |
| Text.BlankIffPiecesBlank | createNewIssue.py:143-156 | on a whitespace separator, a string is blank iff all its split pieces are |
| Text.Strip | createNewIssue.py:39-47 | the stripped text is a slice of the input with only whitespace before and after it. It is empty iff the input is all whitespace, and otherwise it starts and ends with a non-space character |
| Text.Lower | jira_automation_rules.py:171 | `str.lower()` on ASCII: same length, with each capital A to Z replaced by its small letter and every other character kept |
| Text.JoinFrame | createNewIssue.py:259 | `'\n'.join(parts)` starts with the first part, has the separator right after it when more parts follow, and ends with the last part |
| Text.JoinHasSeparator | createNewIssue.py:259 | the separator occurs in a join iff there are two or more parts or some part already holds it |
| Text.Split | createNewIssue.py:140 | `str.split(sep)`: one more piece than there are separators, and no piece contains the separator. With Join it round-trips both ways |
| Text.Decimal | bulkIssueOperations.py:38 | `str(n)` for a natural: only digits, starting with "0" only for 0 itself |
| Text.ParseInt | createNewIssue.py:61 | `int` accepts exactly an optional sign followed by one or more digits. The value is the digits' decimal value, negated after a minus sign |
| Text.ParseIgnoresPlusAndLeadingZero | createNewIssue.py:61 | `int` reads "+" + d and "0" + d as it reads the digits d |
| Text.ParseExamples | transitionIssue.py:41 | `int` reads "+3" and "03" as 3 and "-0" as 0 |
| Text.ParseDecimal | bulkIssueOperations.py:25 | `int` applied to a printed natural returns the natural |
| Text.ParseNegated | transitionIssue.py:41 | `int` applied to a minus sign and a printed natural returns its negation |
| Prompts.Ask | createNewIssue.py:58-67 | a re-prompting loop returns the first reply that parses, and every earlier reply was refused. None iff every reply is refused |
| Prompts.YesNoAnswer | createNewIssue.py:74-82 | a blank reply gives the default, y/yes True, n/no False, and anything else re-prompts |
| Prompts.GetYesNo | createNewIssue.py:70-82 | the answer comes from the first reply that is blank, yes or no, and all earlier replies re-prompted. There is no answer iff no reply is blank, yes or no |
| Prompts.YesNoIgnoresCaseAndPadding | createNewIssue.py:74 | the answer does not change when the reply is lowercased or stripped |
| Prompts.ChoiceAnswer | createNewIssue.py:60-67 | accepted iff the reply is an integer n with 1 ≤ n ≤ len(options). The result is options[n-1], so it is always an option |
| Prompts.GetChoice | createNewIssue.py:52-67 | the session's answer is an option chosen by the first acceptable reply. There is no answer iff no reply is acceptable, so an empty menu never answers |
| Prompts.ChoiceByNumber | createNewIssue.py:55-63 | typing the number an option is listed under selects that option |
| Prompts.NonEmptyReply | createNewIssue.py:45-47 | a reply is accepted iff it is not blank, and the answer is the stripped reply |
| Prompts.GetInput | createNewIssue.py:38-49 | with a default: the default for a blank reply, otherwise the stripped reply. Required without a default: the first non-blank reply, stripped and non-empty. Optional: the stripped first reply |
| CreateIssue.NonBlankLines | createNewIssue.py:143-153 | keeps exactly the lines that are not blank, and is empty iff all lines are blank |
| CreateIssue.NonBlankLinesAppend | createNewIssue.py:143-153 | the filter works line by line, so input order is kept |
| CreateIssue.BuildDescriptionAdf | createNewIssue.py:134-162 | None for empty text and exactly when every line is blank. Otherwise a version-1 "doc" with one paragraph per non-blank line, in input order |
| CreateIssue.DescriptionParagraphsAreLines | createNewIssue.py:143-153 | each paragraph is a whole non-blank line of the input, kept unstripped and without a newline |
| CreateIssue.DescriptionRoundTrip | createNewIssue.py:140-153 | when no line is blank, the paragraphs joined by newlines give back the text |
| CreateIssue.KeepAllLines | createNewIssue.py:143-144 | a list with no blank line passes the filter unchanged |
| CreateIssue.SeparatorOnlyDescription | createNewIssue.py:143-156 | a description holding only U+001C is blank to `strip()` and gives no document |
| CreateIssue.DescriptionLines | createNewIssue.py:247-257 | the description is the lines typed before the first blank one, and the blank reply ends it. The session ends (EOFError) iff no reply is blank |
| CreateIssue.DescriptionText | createNewIssue.py:259-260 | the text is the newline join of the lines with all surrounding whitespace removed: it sits inside the join with only whitespace before and after it, and a non-empty text starts and ends with a non-space. It is empty when no line was typed and non-empty when one was, and a non-empty text always yields a document |
| CreateIssue.DescriptionKeepsTypedLines | createNewIssue.py:250-260 | lines typed without surrounding whitespace become the document's paragraphs, one per line and in order |
| CreateIssue.ParseLabels | createNewIssue.py:279-282 | no labels for an empty answer. Otherwise as many labels as commas plus one, each stripped and free of commas |
| CreateIssue.EmptyLabelsKept | createNewIssue.py:282 | "a,,b" gives ["a", "", "b"], so empty labels are not removed |
| CreateIssue.IssuePayload | createNewIssue.py:300-323 | project, summary and issue type are always present. The type id, description, priority and labels are present exactly when set, or non-empty for labels |
| TransitionIssue.PyIndex | transitionIssue.py:41 | Python indexing: defined iff -len ≤ i < len, and negative indices count from the end |
| TransitionIssue.Select | transitionIssue.py:39-44 | a choice c is accepted iff it parses and 1-len ≤ c ≤ len. For c ≥ 1 it selects entry c-1, and for c ≤ 0 entry len+c-1 |
| TransitionIssue.ZeroSelectsLast | transitionIssue.py:39-41 | "0" selects the last transition |
| TransitionIssue.NumberSelectsListed | transitionIssue.py:35-41 | typing a transition's menu number selects it |
| TransitionIssue.MinusSelectsFromEnd | transitionIssue.py:39-41 | typing "-k" selects the transition k + 1 places from the end |
| TransitionIssue.RunTransition | transitionIssue.py:26-59 | a non-200 or empty listing ends the script. An unusable choice is "Invalid choice." after the listing alone, with no other request. Otherwise one POST with exactly the selected id, and success iff status 204 |
| TransitionIssue.NoPromptWithoutTransitions | transitionIssue.py:26-33 | after a failed or empty listing the run does not depend on the choice, and it mutates nothing |
| BulkIssues.ClampCount | bulkIssueOperations.py:24-29 | the count is always in [1, 10]. An answer that parses to an integer in [1, 10] is kept, and anything else becomes 2 |
| BulkIssues.ClampKeepsTypedCount | bulkIssueOperations.py:25-26 | every typed count from 1 to 10 is kept as typed |
| BulkIssues.BulkSummaryRoundTrip | bulkIssueOperations.py:38 | the issue number is read back from what follows the prefix and " - Bulk Issue #" |
| BulkIssues.BulkSummariesDistinct | bulkIssueOperations.py:34-38 | different numbers give different summaries |
| BulkIssues.BuildIssueUpdates | bulkIssueOperations.py:33-41 | exactly `count` entries. The i-th has summary prefix + " - Bulk Issue #" + i, and every entry has the project key and type "Task" |
| BulkIssues.BulkPayload | bulkIssueOperations.py:22-43 | between 1 and 10 entries, as many as the clamped count of the stripped answer, with pairwise distinct summaries |
| UpdateIssue.BuildUpdatePatch | updateIssue.py:44-64 | the summary is in the patch iff the choice is 1 or 3 and the summary is not blank, and likewise the description for 2 or 3. Values are stripped, and the description is a version-1 doc with one paragraph holding it |
| UpdateIssue.OtherChoiceIsEmpty | updateIssue.py:46-51 | a choice other than 1, 2 or 3 asks for nothing and builds an empty patch |
| UpdateIssue.RunUpdate | updateIssue.py:44-85 | no PUT when the patch is empty. Otherwise one PUT of the patch, and success iff status 204 |
| ScrubRules.Pop | get_automation_rules.py:47 | the key is gone, and every other key keeps its value |
| ScrubRules.PopAbsent | get_automation_rules.py:47 | popping a key the item does not have leaves the item unchanged, which is what the `None` default of `pop` allows |
| ScrubRules.PopAll | get_automation_rules.py:46-47 | every listed key is gone, and all other keys and values are unchanged |
| ScrubRules.ScrubItems | get_automation_rules.py:44-47 | same number and order of items. No item keeps authorAccountId, actorAccountId or ruleScopeARIs, and every other key and value is unchanged |

## Left out

- HTTP, authentication, URLs and JSON encoding are not modelled. A request is an abstract `Request`, and a reply is a status code with a decoded body.
- The issue key is not modelled. Every request of one run is about the one issue the rule was invoked on, so requests do not carry the key. Upper-casing typed keys is not modelled either.
- Rule comments are sent wrapped in a one-paragraph document. The model carries the comment text only.
- AutomationRules.StatusNotice: states only that the text contains the old and new status, the assignee name and the timestamp, not the exact wording or emoji.
- AutomationRules.PriorityNotice: states only that the text starts with the marker and contains the priorities, assignee, summary and timestamp, not the exact wording.
- JSON `null` values are not modelled: the model reads a `null` as a missing key. Line numbers below are in jira_automation_rules.py. In these cases the code raises before sending anything, but the model sends a mutation:
  - `fields: null` in the status-change rule: the code raises at line 246, and the model posts the comment.
  - `fields: null` in the priority rule at or above the threshold: the code raises at line 401, and the model posts the alert.
  - `fields.status: null` on an assigned issue: the code raises at line 163. The model reads the status as "", lists the transitions and can POST one.
  - `fields.status.name: null` on an assigned issue: `current_status` is None and the code raises at line 171. The model behaves as for `fields.status: null`.
  - A listed transition with `name: null` before any match: the code raises at line 187. The model reads the name as "", skips it, and can POST a later match.
  - `fields.labels: null` with a mapped issue type: the code raises a TypeError at line 339. The model reads the labels as empty and PUTs the one new label. With an unmapped type the code returns True at line 337, as the model does.
- In these `null` cases the code raises and the model returns a result instead; neither sends a mutation:
  - `fields: null` in the reassignment rule (line 105), the transition rule (line 163) and the label rule (line 320).
  - `fields.status: null` on an unassigned issue: the code raises at line 163, before the assignee test at line 166. The model stops after the fetch with False.
  - `fields.reporter: null` (line 106).
  - `fields.issuetype: null` or a `null` type name (line 320).
  - `transitions: null` in the listing (line 186).
- A `null` that the code prints instead of a default: `fields.summary: null` prints "None" in the priority alert (lines 403 and 420), where the model writes "No summary". A `displayName` of `null` prints "None", where the model writes "Unassigned".
- `str.lower()` is modelled on ASCII letters only. `str.strip()` removes ASCII whitespace, including U+001C to U+001F, but not the non-ASCII whitespace Python also removes (U+0085, U+00A0 and the Unicode spaces). `int()` accepts an optional sign and ASCII digits only, with no underscores and no non-ASCII digits. Every call site strips the reply before parsing.
- In Python a `requests.Response` is falsy when its status is 400 or more. That does not matter here, because the code compares statuses with exactly 200, 201 or 204.
- The menu loop in `main` of jira_automation_rules.py (lines 488-553) is not modelled: credential checks, reading the choice, and replacing empty statuses and priorities with "Unknown". Each rule is modelled on its own, as the menu calls it. `get_issue_details` (lines 444-458) is a thin fetch wrapper and is not modelled.
- In createNewIssue.py the following are not modelled:
  - project and issue-type fetching and selection;
  - sub-task filtering;
  - the review printout and JSON preview;
  - the confirmation;
  - the create POST and its response handling.

  They are I/O around the modelled payload.
- In bulkIssueOperations.py, the bulk POST and the printing of its result are not modelled.
- In get_automation_rules.py, the GET and the file write are not modelled. Items are maps, so key order inside an item is not modelled; item order is.
- `.env` loading and all console output are not modelled.
- jira_api_demo.py, getIssue.py, searchIssues.py, getWorklogs.py, getProjectDetails.py, getUsers.py, deleteIssue.py and addComment.py are not part of this model. They are fetch-and-print scripts or thin request wrappers.

=== FILE: adf.dfy ===
/** The slice of the Atlassian Document Format the scripts produce: a document
    of type "doc", version 1, holding paragraphs of plain text. */
module Adf {

  /** One `{"type": "paragraph", "content": [{"type": "text", "text": ...}]}` node. */
  datatype Paragraph = Paragraph(text: string)

  /** `{"type": kind, "version": version, "content": [...]}`. */
  datatype Doc = Doc(kind: string, version: int, content: seq<Paragraph>)

  /** The document header every script writes. */
  predicate IsDocV1(d: Doc) {
    d.kind == "doc" && d.version == 1
  }

  /** A version-1 document with one paragraph per given line, in order. */
  function DocOfLines(lines: seq<string>): (d: Doc)
    ensures IsDocV1(d)
    ensures |d.content| == |lines|
    ensures forall k :: 0 <= k < |lines| ==> d.content[k].text == lines[k]
  {
    Doc("doc", 1, seq(|lines|, k requires 0 <= k < |lines| => Paragraph(lines[k])))
  }

  /** The texts of a document's paragraphs, in order. */
  function Texts(d: Doc): (r: seq<string>)
    ensures |r| == |d.content|
    ensures forall k :: 0 <= k < |r| ==> r[k] == d.content[k].text
  {
    seq(|d.content|, k requires 0 <= k < |d.content| => d.content[k].text)
  }
}

=== FILE: automation_rules.dfy ===
/** The five automation rules of `JiraAutomation`. Each rule is a pure function
    of what the tracker answers: the reply to the issue fetch, and the status
    (None when the request raised) of every later call. It returns the requests
    the rule issued, in order, and the boolean the Python method returns. */
module AutomationRules {
  import opened Optional
  import opened Text
  import opened Tracker

  /** The requests a rule sent, in order, and the boolean it returned. */
  datatype RuleRun = RuleRun(trace: seq<Request>, ok: bool)

  /** Every rule mutates at most once, only as its last request, and when it
      does, it reports success exactly when that request was answered with the
      success status. */
  ghost predicate MutatesOnceAtEnd(r: RuleRun, status: Option<int>) {
    && (forall k :: 0 <= k < |r.trace| - 1 ==> !IsMutation(r.trace[k]))
    && (|r.trace| > 0 && IsMutation(r.trace[|r.trace| - 1]) ==>
          (r.ok <==> Succeeded(r.trace[|r.trace| - 1], status)))
  }

  /** The issue body of a successful fetch. */
  function Fetched(fetch: Option<Reply<Issue>>): Issue
    requires FetchOk(fetch)
  {
    fetch.value.body
  }

  // ===========================================================================
  // Rule 1: assign the issue to its reporter
  // ===========================================================================

  /** The patch that assigns an issue to an account. */
  function AssignPatch(accountId: string): (p: FieldPatch)
    ensures PatchFields(p) == {"assignee"} && p.assignee == Some(accountId)
  {
    EmptyPatch.(assignee := Some(accountId))
  }

  function AssignToReporter(fetch: Option<Reply<Issue>>, put: Option<int>): (r: RuleRun)
    ensures MutatesOnceAtEnd(r, put)
    ensures |r.trace| > 0 && r.trace[0] == GetIssue
    ensures !FetchOk(fetch) ==> r == RuleRun([GetIssue], false)
    ensures FetchOk(fetch) && !Truthy(Fetched(fetch).reporterAccountId) ==>
              r == RuleRun([GetIssue], false)
    ensures FetchOk(fetch) && Truthy(Fetched(fetch).reporterAccountId) ==>
              && |r.trace| == 2
              && r.trace[1].PutFields?
              && PatchFields(r.trace[1].patch) == {"assignee"}
              && r.trace[1].patch.assignee == Fetched(fetch).reporterAccountId
              && (r.ok <==> put == Some(204))
  {
    if !FetchOk(fetch) then RuleRun([GetIssue], false)
    else
      var reporter := fetch.value.body.reporterAccountId;
      if !Truthy(reporter) then RuleRun([GetIssue], false)
      else
        var req := PutFields(AssignPatch(reporter.value));
        RuleRun([GetIssue, req], Succeeded(req, put))
  }

  // ===========================================================================
  // Rule 2: move an assigned issue to "In Progress"
  // ===========================================================================

  /** Lowercased statuses in which no transition is attempted. */
  const SettledStatuses: set<string> := {"in progress", "done", "closed"}

  /** A transition counts as "start work" when its lowercased name contains
      "progress" or is exactly "start"; a missing name reads as "". */
  predicate IsStartTransition(t: Transition) {
    var name := Lower(t.name.GetOr(""));
    Contains(name, "progress") || name == "start"
  }

  /** Index of the first start-work transition in list order. */
  function FirstStart(ts: seq<Transition>): (r: Option<nat>)
    ensures r.Some? ==> r.value < |ts| && IsStartTransition(ts[r.value])
    ensures r.Some? ==> forall j :: 0 <= j < r.value ==> !IsStartTransition(ts[j])
    ensures r.None? <==> forall j :: 0 <= j < |ts| ==> !IsStartTransition(ts[j])
    decreases |ts|
  {
    if |ts| == 0 then None
    else if IsStartTransition(ts[0]) then Some(0)
    else
      match FirstStart(ts[1..])
      case None => None
      case Some(i) => Some(i + 1)
  }

  /** The fetched issue has an assignee and a status outside SettledStatuses. */
  predicate WantsTransition(fetch: Option<Reply<Issue>>) {
    FetchOk(fetch) && Fetched(fetch).assignee.Some?
    && Lower(Fetched(fetch).status) !in SettledStatuses
  }

  /** The id of the transition the rule applies, when the listing succeeded,
      some transition matches, and the first match carries a non-empty id. */
  function ChosenTransition(list: Option<Reply<seq<Transition>>>): (id: Option<string>)
    ensures id.Some? <==>
              && FetchOk(list)
              && FirstStart(list.value.body).Some?
              && Truthy(list.value.body[FirstStart(list.value.body).value].id)
    ensures id.Some? ==>
              && id.value != ""
              && id == list.value.body[FirstStart(list.value.body).value].id
  {
    if !FetchOk(list) then None
    else
      var ts := list.value.body;
      match FirstStart(ts)
      case None => None
      case Some(i) => if Truthy(ts[i].id) then ts[i].id else None
  }

  function AutoTransition(
    fetch: Option<Reply<Issue>>,
    list: Option<Reply<seq<Transition>>>,
    post: Option<int>
  ): (r: RuleRun)
    ensures MutatesOnceAtEnd(r, post)
    ensures |r.trace| > 0 && r.trace[0] == GetIssue
    ensures !FetchOk(fetch) ==> r == RuleRun([GetIssue], false)
    ensures FetchOk(fetch) && Fetched(fetch).assignee.None? ==> r == RuleRun([GetIssue], false)
    ensures (FetchOk(fetch) && Fetched(fetch).assignee.Some?
             && Lower(Fetched(fetch).status) in SettledStatuses) ==> r == RuleRun([GetIssue], true)
    ensures GetTransitions in r.trace <==> WantsTransition(fetch)
    ensures (exists id :: PostTransition(id) in r.trace) <==>
              WantsTransition(fetch) && ChosenTransition(list).Some?
    ensures WantsTransition(fetch) && ChosenTransition(list).None? ==> r == RuleRun([GetIssue, GetTransitions], false)
    ensures WantsTransition(fetch) && ChosenTransition(list).Some? ==>
              && r.trace == [GetIssue, GetTransitions, PostTransition(ChosenTransition(list).value)]
              && (r.ok <==> post == Some(204))
  {
    if !FetchOk(fetch) then RuleRun([GetIssue], false)
    else
      var issue := fetch.value.body;
      if issue.assignee.None? then RuleRun([GetIssue], false)
      else if Lower(issue.status) in SettledStatuses then RuleRun([GetIssue], true)
      else
        match ChosenTransition(list)
        case None => RuleRun([GetIssue, GetTransitions], false)
        case Some(id) =>
          var req := PostTransition(id);
          RuleRun([GetIssue, GetTransitions, req], Succeeded(req, post))
  }

  /** The transition applied is the first start-work transition in list order,
      and every transition listed before it is not a start-work transition. */
  lemma TransitionIsFirstMatch(
    fetch: Option<Reply<Issue>>,
    list: Option<Reply<seq<Transition>>>,
    post: Option<int>,
    id: string
  )
    requires PostTransition(id) in AutoTransition(fetch, list, post).trace
    ensures FetchOk(list)
    ensures exists i :: 0 <= i < |list.value.body| && list.value.body[i].id == Some(id)
                        && IsStartTransition(list.value.body[i])
                        && forall j :: 0 <= j < i ==> !IsStartTransition(list.value.body[j])
  {
    var i := FirstStart(list.value.body).value;
    assert list.value.body[i].id == Some(id);
  }

  // ===========================================================================
  // Rule 3: comment on a status change
  // ===========================================================================

  /** The name a notice shows for the assignee: the display name, and
      "Unassigned" when there is no assignee or it has no display name. */
  function AssigneeName(issue: Issue): (name: string)
    ensures issue.assignee.None? ==> name == "Unassigned"
    ensures issue.assignee.Some? && issue.assignee.value.displayName.Some? ==>
              name == issue.assignee.value.displayName.value
    ensures issue.assignee.Some? && issue.assignee.value.displayName.None? ==> name == "Unassigned"
  {
    match issue.assignee
    case None => "Unassigned"
    case Some(u) => u.displayName.GetOr("Unassigned")
  }

  /** The fixed wording around the values of a status-change notice. */
  const StatusHead := "\U{1F504} Status Update\n\nIssue status changed from '"
  const StatusTail := "\n\nThis is an automated notification from the Jira Automation system."

  /** The status-change notice; the timestamp is supplied by the caller. */
  function StatusNotice(oldStatus: string, newStatus: string, assignee: string, timestamp: string): (text: string)
    ensures Contains(text, oldStatus) && Contains(text, newStatus)
    ensures Contains(text, assignee) && Contains(text, timestamp)
  {
    var pieces := [
      StatusHead, oldStatus,
      "' to '", newStatus,
      "'\n\nAssignee: ", assignee,
      "\nTimestamp: ", timestamp,
      StatusTail
    ];
    ContainsPiece(pieces, 1);
    ContainsPiece(pieces, 3);
    ContainsPiece(pieces, 5);
    ContainsPiece(pieces, 7);
    Concat(pieces)
  }

  function NotifyStatusChange(
    fetch: Option<Reply<Issue>>,
    oldStatus: string,
    newStatus: string,
    timestamp: string,
    post: Option<int>
  ): (r: RuleRun)
    ensures MutatesOnceAtEnd(r, post)
    ensures !FetchOk(fetch) ==> r == RuleRun([GetIssue], false)
    ensures FetchOk(fetch) ==>
              && |r.trace| == 2 && r.trace[0] == GetIssue && r.trace[1].PostComment?
              && Contains(r.trace[1].text, oldStatus)
              && Contains(r.trace[1].text, newStatus)
              && Contains(r.trace[1].text, AssigneeName(Fetched(fetch)))
              && Contains(r.trace[1].text, timestamp)
              && (r.ok <==> post == Some(201))
  {
    if !FetchOk(fetch) then RuleRun([GetIssue], false)
    else
      var name := AssigneeName(fetch.value.body);
      var req := PostComment(StatusNotice(oldStatus, newStatus, name, timestamp));
      RuleRun([GetIssue, req], Succeeded(req, post))
  }

  // ===========================================================================
  // Rule 4: label an issue after its type
  // ===========================================================================

  /** The fixed issue-type to label table, keyed by the lowercased type name. */
  const LabelMapping: map<string, string> := map[
    "bug" := "bug",
    "story" := "feature",
    "task" := "task",
    "epic" := "epic",
    "sub-task" := "subtask",
    "improvement" := "enhancement"
  ]

  /** The label for an issue type, looked up case-insensitively in the
      mapping table; None for a type the table does not list. */
  function LabelFor(issueType: string): (found: Option<string>)
    ensures found.Some? <==>
              Lower(issueType) in {"bug", "story", "task", "epic", "sub-task", "improvement"}
    ensures Lower(issueType) == "bug" ==> found == Some("bug")
    ensures Lower(issueType) == "story" ==> found == Some("feature")
    ensures Lower(issueType) == "task" ==> found == Some("task")
    ensures Lower(issueType) == "epic" ==> found == Some("epic")
    ensures Lower(issueType) == "sub-task" ==> found == Some("subtask")
    ensures Lower(issueType) == "improvement" ==> found == Some("enhancement")
  {
    var t := Lower(issueType);
    if t in LabelMapping then Some(LabelMapping[t]) else None
  }

  function AutoLabel(fetch: Option<Reply<Issue>>, put: Option<int>): (r: RuleRun)
    ensures MutatesOnceAtEnd(r, put)
    ensures |r.trace| > 0 && r.trace[0] == GetIssue
    ensures !FetchOk(fetch) ==> r == RuleRun([GetIssue], false)
    ensures FetchOk(fetch) && LabelFor(Fetched(fetch).issueType).None? ==> r == RuleRun([GetIssue], true)
    ensures FetchOk(fetch) && LabelFor(Fetched(fetch).issueType).Some?
            && LabelFor(Fetched(fetch).issueType).value in Fetched(fetch).labels ==>
              r == RuleRun([GetIssue], true)
    ensures FetchOk(fetch) && LabelFor(Fetched(fetch).issueType).Some?
            && LabelFor(Fetched(fetch).issueType).value !in Fetched(fetch).labels ==>
              && |r.trace| == 2 && r.trace[1].PutFields?
              && PatchFields(r.trace[1].patch) == {"labels"}
              && r.trace[1].patch.labels ==
                 Some(Fetched(fetch).labels + [LabelFor(Fetched(fetch).issueType).value])
              && (r.ok <==> put == Some(204))
  {
    if !FetchOk(fetch) then RuleRun([GetIssue], false)
    else
      var issue := fetch.value.body;
      match LabelFor(issue.issueType)
      case None => RuleRun([GetIssue], true)
      case Some(tag) =>
        if tag in issue.labels then RuleRun([GetIssue], true)
        else
          var req := PutFields(EmptyPatch.(labels := Some(issue.labels + [tag])));
          RuleRun([GetIssue, req], Succeeded(req, put))
  }

  /** Applying the PUT of a labelling run to the issue and running the rule
      again issues no PUT, and the second run reports success. */
  lemma {:induction false} AutoLabelIdempotent(issue: Issue, put: Option<int>, put2: Option<int>)
    requires |AutoLabel(Some(Reply(200, issue)), put).trace| == 2
    ensures var r := AutoLabel(Some(Reply(200, issue)), put);
            var updated := issue.(labels := r.trace[1].patch.labels.value);
            AutoLabel(Some(Reply(200, updated)), put2) == RuleRun([GetIssue], true)
  {
    var tag := LabelFor(issue.issueType).value;
    var updated := issue.(labels := issue.labels + [tag]);
    assert updated.labels[|issue.labels|] == tag;
  }

  /** A labelling run never creates a duplicate label. */
  lemma {:induction false} AutoLabelKeepsLabelsDistinct(issue: Issue, put: Option<int>)
    requires forall i, j :: 0 <= i < j < |issue.labels| ==> issue.labels[i] != issue.labels[j]
    requires |AutoLabel(Some(Reply(200, issue)), put).trace| == 2
    ensures var ls := AutoLabel(Some(Reply(200, issue)), put).trace[1].patch.labels.value;
            forall i, j :: 0 <= i < j < |ls| ==> ls[i] != ls[j]
  {
    var tag := LabelFor(issue.issueType).value;
    var ls := issue.labels + [tag];
    forall i, j | 0 <= i < j < |ls| ensures ls[i] != ls[j] {
      if j == |issue.labels| {
        assert ls[i] == issue.labels[i];
      } else {
        assert ls[i] == issue.labels[i] && ls[j] == issue.labels[j];
      }
    }
  }

  // ===========================================================================
  // Rule 5: alert on a priority escalation
  // ===========================================================================

  /** Lowercased priorities that trigger an alert. */
  const HighPriorities: set<string> := {"high", "highest", "critical", "blocker"}

  /** Lowercased priorities that get the red marker; "high" gets orange. */
  const RedPriorities: set<string> := {"critical", "blocker", "highest"}

  const RedMarker: char := '\U{1F534}'
  const OrangeMarker: char := '\U{1F7E0}'

  function Marker(newPriority: string): (m: char)
    requires Lower(newPriority) in HighPriorities
    ensures m == RedMarker <==> Lower(newPriority) != "high"
    ensures m == OrangeMarker <==> Lower(newPriority) == "high"
  {
    if Lower(newPriority) in RedPriorities then RedMarker else OrangeMarker
  }

  /** The fixed wording around the values of a priority alert. */
  const AlertHead := " PRIORITY ALERT\n\nThis issue's priority has been changed from '"
  const AlertTail := "\n\n\U{26A0}\U{FE0F} Please review this issue as soon as possible.\n\n"
    + "This is an automated alert from the Jira Automation system."

  /** The alert text, led by the marker. */
  function PriorityNotice(
    marker: char, oldPriority: string, newPriority: string,
    assignee: string, summary: string, timestamp: string
  ): (text: string)
    ensures |text| > 0 && text[0] == marker
    ensures Contains(text, oldPriority) && Contains(text, newPriority)
    ensures Contains(text, assignee) && Contains(text, summary) && Contains(text, timestamp)
  {
    var pieces := [
      [marker] + AlertHead, oldPriority,
      "' to '", newPriority,
      "'.\n\nAssignee: ", assignee,
      "\nSummary: ", summary,
      "\nTimestamp: ", timestamp,
      AlertTail
    ];
    ContainsPiece(pieces, 1);
    ContainsPiece(pieces, 3);
    ContainsPiece(pieces, 5);
    ContainsPiece(pieces, 7);
    ContainsPiece(pieces, 9);
    Concat(pieces)
  }

  function PriorityAlert(
    oldPriority: string,
    newPriority: string,
    fetch: Option<Reply<Issue>>,
    timestamp: string,
    post: Option<int>
  ): (r: RuleRun)
    ensures MutatesOnceAtEnd(r, post)
    ensures Lower(newPriority) !in HighPriorities ==> r == RuleRun([], true)
    ensures Lower(newPriority) in HighPriorities && !FetchOk(fetch) ==> r == RuleRun([GetIssue], false)
    ensures (exists k :: 0 <= k < |r.trace| && r.trace[k].PostComment?) <==>
              Lower(newPriority) in HighPriorities && FetchOk(fetch)
    ensures Lower(newPriority) in HighPriorities && FetchOk(fetch) ==>
              && |r.trace| == 2 && r.trace[0] == GetIssue && r.trace[1].PostComment?
              && |r.trace[1].text| > 0 && r.trace[1].text[0] == Marker(newPriority)
              && Contains(r.trace[1].text, oldPriority)
              && Contains(r.trace[1].text, newPriority)
              && Contains(r.trace[1].text, AssigneeName(Fetched(fetch)))
              && Contains(r.trace[1].text, Fetched(fetch).summary.GetOr("No summary"))
              && Contains(r.trace[1].text, timestamp)
              && (r.ok <==> post == Some(201))
  {
    if Lower(newPriority) !in HighPriorities then RuleRun([], true)
    else if !FetchOk(fetch) then RuleRun([GetIssue], false)
    else
      var issue := fetch.value.body;
      var text := PriorityNotice(Marker(newPriority), oldPriority, newPriority,
                                 AssigneeName(issue), issue.summary.GetOr("No summary"), timestamp);
      var req := PostComment(text);
      RuleRun([GetIssue, req], Succeeded(req, post))
  }
}

=== FILE: bulk_issues.dfy ===
/** The bulk creator: validate the requested count, then build one create
    entry per issue, numbered from 1. */
module BulkIssues {
  import opened Optional
  import opened Text

  const MinCount := 1
  const MaxCount := 10
  /** The count used when the answer is not a number in range. */
  const FallbackCount := 2

  /** The count the script uses for an already stripped answer. */
  function ClampCount(answer: string): (count: int)
    ensures MinCount <= count <= MaxCount
    ensures ParseInt(answer).Some? && MinCount <= ParseInt(answer).value <= MaxCount ==>
              count == ParseInt(answer).value
    ensures !(ParseInt(answer).Some? && MinCount <= ParseInt(answer).value <= MaxCount) ==>
              count == FallbackCount
  {
    match ParseInt(answer)
    case Some(n) => if MinCount <= n <= MaxCount then n else FallbackCount
    case None => FallbackCount
  }

  /** Every count the script accepts is kept as typed. */
  lemma {:induction false} ClampKeepsTypedCount(n: nat)
    requires MinCount <= n <= MaxCount
    ensures ClampCount(Decimal(n)) == n
  {
    ParseDecimal(n);
  }

  /** One element of `issueUpdates`. */
  datatype BulkEntry = BulkEntry(projectKey: string, summary: string, issueType: string)

  const SummaryInfix := " - Bulk Issue #"

  /** The summary of the i-th bulk issue: the prefix, the fixed infix and
      the number in decimal. */
  function BulkSummary(prefix: string, i: nat): string {
    prefix + SummaryInfix + Decimal(i)
  }

  /** The number is read back from the summary: what follows the prefix and
      the fixed infix is exactly the issue's number. */
  lemma {:induction false} BulkSummaryRoundTrip(prefix: string, i: nat)
    ensures var s := BulkSummary(prefix, i);
            |s| >= |prefix| + |SummaryInfix|
            && ParseInt(s[|prefix| + |SummaryInfix|..]) == Some(i)
  {
    var s := BulkSummary(prefix, i);
    assert s[|prefix| + |SummaryInfix|..] == Decimal(i);
    ParseDecimal(i);
  }

  /** Different numbers give different summaries. */
  lemma {:induction false} BulkSummariesDistinct(prefix: string, i: nat, j: nat)
    requires i != j
    ensures BulkSummary(prefix, i) != BulkSummary(prefix, j)
  {
    BulkSummaryRoundTrip(prefix, i);
    BulkSummaryRoundTrip(prefix, j);
  }

  /** The `for i in range(1, count + 1)` loop building `issueUpdates`. */
  method BuildIssueUpdates(projectKey: string, prefix: string, count: nat) returns (updates: seq<BulkEntry>)
    ensures |updates| == count
    ensures forall k :: 0 <= k < count ==> updates[k].summary == BulkSummary(prefix, k + 1)
    ensures forall k :: 0 <= k < count ==>
              updates[k].projectKey == projectKey && updates[k].issueType == "Task"
  {
    updates := [];
    var i := 1;
    while i <= count
      invariant 1 <= i <= count + 1
      invariant |updates| == i - 1
      invariant forall k :: 0 <= k < i - 1 ==> updates[k] == BulkEntry(projectKey, BulkSummary(prefix, k + 1), "Task")
    {
      updates := updates + [BulkEntry(projectKey, BulkSummary(prefix, i), "Task")];
      i := i + 1;
    }
  }

  /** The entries built for the count answer as typed (the script strips it
      first): at least one and at most ten, every summary different from
      every other. */
  method BulkPayload(projectKey: string, prefix: string, answer: string) returns (updates: seq<BulkEntry>)
    ensures MinCount <= |updates| <= MaxCount
    ensures |updates| == ClampCount(Strip(answer))
    ensures forall a, b :: 0 <= a < b < |updates| ==> updates[a].summary != updates[b].summary
  {
    var count := ClampCount(Strip(answer));
    updates := BuildIssueUpdates(projectKey, prefix, count);
    forall a, b | 0 <= a < b < |updates|
      ensures updates[a].summary != updates[b].summary
    {
      BulkSummariesDistinct(prefix, a + 1, b + 1);
    }
  }
}

=== FILE: create_issue.dfy ===
/** The pure pieces of the interactive issue creator: turning the typed
    description into a document, splitting the label answer, and assembling the
    `fields` object of the create request. */
module CreateIssue {
  import opened Optional
  import opened Text
  import opened Adf

  // ---------------------------------------------------------------------------
  // build_description_adf
  // ---------------------------------------------------------------------------

  /** The lines that are not blank, in input order, each left unstripped. */
  function NonBlankLines(lines: seq<string>): (r: seq<string>)
    ensures forall x :: x in r <==> x in lines && !IsBlank(x)
    ensures |r| <= |lines|
    ensures r == [] <==> AllBlank(lines)
    decreases |lines|
  {
    if |lines| == 0 then []
    else
      var rest := NonBlankLines(lines[1..]);
      AllBlankCons(lines[0], lines[1..]);
      assert lines == [lines[0]] + lines[1..];
      if IsBlank(lines[0]) then rest else [lines[0]] + rest
  }

  /** Filtering is done line by line, so it keeps the input order. */
  lemma {:induction false} NonBlankLinesAppend(a: seq<string>, b: seq<string>)
    ensures NonBlankLines(a + b) == NonBlankLines(a) + NonBlankLines(b)
    decreases |a|
  {
    if |a| > 0 {
      assert (a + b)[0] == a[0];
      assert (a + b)[1..] == a[1..] + b;
      NonBlankLinesAppend(a[1..], b);
    } else {
      assert a + b == b;
    }
  }

  /** `build_description_adf(text)`: one paragraph per non-blank line. */
  function BuildDescriptionAdf(text: string): (r: Option<Doc>)
    ensures text == "" ==> r.None?
    ensures r.None? <==> IsBlank(text)
    ensures r.Some? ==> IsDocV1(r.value) && |r.value.content| > 0
    ensures r.Some? ==> Texts(r.value) == NonBlankLines(Split(text, '\n'))
  {
    if text == "" then None
    else
      var content := NonBlankLines(Split(text, '\n'));
      BlankIffPiecesBlank(text, '\n');
      if |content| == 0 then None else Some(DocOfLines(content))
  }

  /** Each paragraph holds one whole line of the input: a non-blank line,
      without its newline and with its own whitespace kept. */
  lemma DescriptionParagraphsAreLines(text: string, k: nat)
    requires BuildDescriptionAdf(text).Some?
    requires k < |BuildDescriptionAdf(text).value.content|
    ensures var p := BuildDescriptionAdf(text).value.content[k].text;
            p in Split(text, '\n') && !IsBlank(p) && '\n' !in p
  {
    var d := BuildDescriptionAdf(text).value;
    assert Texts(d)[k] == d.content[k].text;
  }

  /** When no line is blank, joining the paragraphs with newlines gives back
      the description exactly. */
  lemma {:induction false} DescriptionRoundTrip(text: string)
    requires text != ""
    requires forall k :: 0 <= k < |Split(text, '\n')| ==> !IsBlank(Split(text, '\n')[k])
    ensures BuildDescriptionAdf(text).Some?
    ensures Join(Texts(BuildDescriptionAdf(text).value), '\n') == text
  {
    var lines := Split(text, '\n');
    KeepAllLines(lines);
    JoinSplit(text, '\n');
    assert !IsBlank(lines[0]);
  }

  lemma {:induction false} KeepAllLines(lines: seq<string>)
    requires forall k :: 0 <= k < |lines| ==> !IsBlank(lines[k])
    ensures NonBlankLines(lines) == lines
    decreases |lines|
  {
    if |lines| > 0 {
      KeepAllLines(lines[1..]);
    }
  }

  // ---------------------------------------------------------------------------
  // The description prompt in main
  // ---------------------------------------------------------------------------

  /** A line holding only an information separator is blank to `strip()`,
      so it gives no document. */
  lemma SeparatorOnlyDescription()
    ensures BuildDescriptionAdf("\U{001C}").None?
  {
  }

  /** The description prompt reads lines until the first blank one. The
      result holds the lines typed before it and the index of that blank
      reply; None when the replies end first, where `input()` raises
      EOFError and the script stops. */
  function DescriptionLines(replies: seq<string>): (r: Option<(seq<string>, nat)>)
    ensures r.None? <==> forall j :: 0 <= j < |replies| ==> !IsBlank(replies[j])
    ensures r.Some? ==>
              && r.value.1 < |replies|
              && IsBlank(replies[r.value.1])
              && r.value.0 == replies[..r.value.1]
              && forall k :: 0 <= k < r.value.1 ==> !IsBlank(replies[k])
    decreases |replies|
  {
    if |replies| == 0 then None
    else if IsBlank(replies[0]) then Some(([], 0))
    else
      match DescriptionLines(replies[1..])
      case None => None
      case Some(found) =>
        assert replies[..found.1 + 1] == [replies[0]] + replies[1..][..found.1];
        Some(([replies[0]] + found.0, found.1 + 1))
  }

  /** A join is blank only if its first part is. */
  lemma {:induction false} BlankJoinFirst(parts: seq<string>, sep: char)
    ensures |parts| > 0 && IsBlank(Join(parts, sep)) ==> IsBlank(parts[0])
  {
    if |parts| > 0 && IsBlank(Join(parts, sep)) {
      var joined := Join(parts, sep);
      assert parts[0] <= joined;
      forall i | 0 <= i < |parts[0]| ensures IsSpace(parts[0][i]) {
        assert parts[0][i] == joined[i];
      }
    }
  }

  /** The description text of the collected lines: joined by newlines and
      stripped. It is empty when nothing was typed, never empty when at least
      one line was (every collected line is non-blank), and a non-empty text
      always yields a document, so main's `if description_text` test only
      skips the empty description. */
  function DescriptionText(lines: seq<string>): (text: string)
    ensures |lines| == 0 ==> text == ""
    ensures |lines| > 0 && (forall k :: 0 <= k < |lines| ==> !IsBlank(lines[k])) ==> text != ""
    ensures text != "" ==> !IsSpace(text[0]) && !IsSpace(text[|text| - 1])
    ensures text != "" ==> BuildDescriptionAdf(text).Some?
    ensures exists k :: OccursAt(Join(lines, '\n'), text, k)
                        && IsBlank(Join(lines, '\n')[..k])
                        && IsBlank(Join(lines, '\n')[k + |text|..])
  {
    StrippedJoinNonBlank(lines);
    Strip(Join(lines, '\n'))
  }

  /** Stripping a join of non-blank lines leaves a non-empty text that
      yields a document. */
  lemma StrippedJoinNonBlank(lines: seq<string>)
    ensures |lines| > 0 && (forall k :: 0 <= k < |lines| ==> !IsBlank(lines[k])) ==> Strip(Join(lines, '\n')) != ""
    ensures Strip(Join(lines, '\n')) != "" ==> BuildDescriptionAdf(Strip(Join(lines, '\n'))).Some?
  {
    var joined := Join(lines, '\n');
    BlankJoinFirst(lines, '\n');
    StripIdempotent(joined);
  }

  /** A line with no whitespace at either end. */
  predicate Unpadded(line: string) {
    |line| > 0 && !IsSpace(line[0]) && !IsSpace(line[|line| - 1])
  }

  /** The join of non-empty parts starts with the first part's first
      character and ends with the last part's last character. */
  lemma {:induction false} JoinEnds(parts: seq<string>, sep: char)
    requires |parts| > 0
    requires forall k :: 0 <= k < |parts| ==> |parts[k]| > 0
    ensures var j := Join(parts, sep);
            |j| > 0 && j[0] == parts[0][0] && j[|j| - 1] == parts[|parts| - 1][|parts[|parts| - 1]| - 1]
    decreases |parts|
  {
    if |parts| > 1 {
      JoinEnds(parts[1..], sep);
      assert parts[1..][|parts| - 2] == parts[|parts| - 1];
    }
  }

  /** Typed lines without padding come back as the document's paragraphs,
      one per line and in order. */
  lemma {:induction false} DescriptionKeepsTypedLines(lines: seq<string>)
    requires |lines| > 0
    requires forall k :: 0 <= k < |lines| ==> Unpadded(lines[k]) && '\n' !in lines[k]
    ensures DescriptionText(lines) == Join(lines, '\n')
    ensures BuildDescriptionAdf(DescriptionText(lines)).Some?
    ensures Texts(BuildDescriptionAdf(DescriptionText(lines)).value) == lines
  {
    var joined := Join(lines, '\n');
    JoinEnds(lines, '\n');
    StripUnpadded(joined);
    SplitJoin(lines, '\n');
    assert forall k :: 0 <= k < |lines| ==> !IsBlank(lines[k]) by {
      forall k | 0 <= k < |lines| ensures !IsBlank(lines[k]) {
        assert !IsSpace(lines[k][0]);
      }
    }
    KeepAllLines(lines);
  }

  // ---------------------------------------------------------------------------
  // Labels
  // ---------------------------------------------------------------------------

  /** Every piece stripped, in order. */
  function StripAll(pieces: seq<string>): (r: seq<string>)
    ensures |r| == |pieces|
    ensures forall k :: 0 <= k < |r| ==> r[k] == Strip(pieces[k])
  {
    seq(|pieces|, k requires 0 <= k < |pieces| => Strip(pieces[k]))
  }

  /** A stripped piece of a comma split is comma-free and already stripped. */
  lemma StrippedPiece(piece: string)
    requires ',' !in piece
    ensures ',' !in Strip(piece) && Strip(Strip(piece)) == Strip(piece)
  {
    StripKeepsAbsent(piece, ',');
    StripIdempotent(piece);
  }

  /** The labels typed as one comma-separated answer: each piece between
      commas, stripped, with empty pieces kept; no labels for an empty
      answer. */
  function ParseLabels(answer: string): (labels: seq<string>)
    ensures answer == "" ==> labels == []
    ensures answer != "" ==> |labels| == Count(answer, ',') + 1
    ensures answer != "" ==> forall k :: 0 <= k < |labels| ==> labels[k] == Strip(Split(answer, ',')[k])
    ensures forall k :: 0 <= k < |labels| ==> ',' !in labels[k] && Strip(labels[k]) == labels[k]
  {
    if answer == "" then []
    else
      var pieces := Split(answer, ',');
      var labels := StripAll(pieces);
      forall k | 0 <= k < |labels| ensures ',' !in labels[k] && Strip(labels[k]) == labels[k] {
        StrippedPiece(pieces[k]);
      }
      labels
  }

  /** Empty labels between commas are kept, not dropped. */
  lemma EmptyLabelsKept()
    ensures ParseLabels("a,,b") == ["a", "", "b"]
  {
    SplitExample();
    StripUnpadded("a");
    StripUnpadded("");
    StripUnpadded("b");
    var labels := StripAll(["a", "", "b"]);
    assert labels == ["a", "", "b"];
  }

  lemma SplitExample()
    ensures Split("a,,b", ',') == ["a", "", "b"]
  {
    assert Split("", ',') == [""];
    assert Split("b", ',') == ["b"] by {
      assert "b"[1..] == "";
      assert ['b'] + "" == "b";
      assert [""][1..] == [];
    }
    assert Split(",b", ',') == ["", "b"] by { assert ",b"[1..] == "b"; }
    assert Split(",,b", ',') == ["", "", "b"] by { assert ",,b"[1..] == ",b"; }
    var rest := ["", "", "b"];
    assert "a,,b"[1..] == ",,b";
    assert ['a'] + rest[0] == "a";
    assert rest[1..] == ["", "b"];
  }

  // ---------------------------------------------------------------------------
  // The create payload
  // ---------------------------------------------------------------------------

  /** `fields.issuetype`: the name always, the id when known. */
  datatype IssueTypeRef = IssueTypeRef(name: string, id: Option<string>)

  /** The `fields` object of the create request; None is a key left out. */
  datatype IssueFields = IssueFields(
    projectKey: string,
    summary: string,
    issueType: IssueTypeRef,
    description: Option<Doc>,
    priority: Option<string>,
    labels: Option<seq<string>>)

  /** The keys the `fields` object carries. */
  function PayloadKeys(f: IssueFields): set<string> {
    {"project", "summary", "issuetype"}
    + (if f.description.Some? then {"description"} else {})
    + (if f.priority.Some? then {"priority"} else {})
    + (if f.labels.Some? then {"labels"} else {})
  }

  function IssuePayload(
    projectKey: string,
    summary: string,
    typeName: string,
    typeId: Option<string>,
    description: Option<Doc>,
    priority: Option<string>,
    labels: seq<string>
  ): (f: IssueFields)
    ensures {"project", "summary", "issuetype"} <= PayloadKeys(f)
    ensures f.projectKey == projectKey && f.summary == summary && f.issueType.name == typeName
    ensures f.issueType.id.Some? <==> Truthy(typeId)
    ensures "description" in PayloadKeys(f) <==> description.Some?
    ensures "priority" in PayloadKeys(f) <==> Truthy(priority)
    ensures "labels" in PayloadKeys(f) <==> labels != []
    ensures f.issueType.id.Some? ==> f.issueType.id == typeId
    ensures f.description.Some? ==> f.description == description
    ensures f.priority.Some? ==> f.priority == priority
    ensures f.labels.Some? ==> f.labels.value == labels
  {
    IssueFields(
      projectKey,
      summary,
      IssueTypeRef(typeName, if Truthy(typeId) then typeId else None),
      description,
      if Truthy(priority) then priority else None,
      if labels != [] then Some(labels) else None)
  }
}

=== FILE: optional.dfy ===
/** The absent-or-present value used wherever the scripts read an optional
    JSON field, a request that may raise, or a prompt that may re-ask. */
module Optional {

  datatype Option<+T> = None | Some(value: T) {

    /** The wrapped value, or `default` when absent (Python's `d.get(k, default)`). */
    function GetOr(default: T): T {
      match this
      case Some(v) => v
      case None => default
    }
  }
}

=== FILE: prompts.dfy ===
/** The answer parsers of the interactive issue creator: `get_input`,
    `get_choice` and `get_yes_no`. A console session is the finite sequence of
    lines the user types; a loop that re-prompts moves on to the next line,
    and running out of lines (where `input()` raises EOFError) is None. */
module Prompts {
  import opened Optional
  import opened Text

  /** A prompt loop: asks until a reply parses, returning the parsed value and
      the index of the reply that gave it. */
  function Ask<T>(parse: string -> Option<T>, replies: seq<string>): (r: Option<(T, nat)>)
    ensures r.Some? ==> r.value.1 < |replies| && parse(replies[r.value.1]) == Some(r.value.0)
    ensures r.Some? ==> forall j :: 0 <= j < r.value.1 ==> parse(replies[j]).None?
    ensures r.None? <==> forall j :: 0 <= j < |replies| ==> parse(replies[j]).None?
    decreases |replies|
  {
    if |replies| == 0 then None
    else
      match parse(replies[0])
      case Some(v) => Some((v, 0))
      case None =>
        match Ask(parse, replies[1..])
        case None => None
        case Some(found) => Some((found.0, found.1 + 1))
  }

  // ---------------------------------------------------------------------------
  // get_yes_no
  // ---------------------------------------------------------------------------

  /** One reply to a yes/no question; None re-prompts. */
  function YesNoAnswer(reply: string, default: bool): (r: Option<bool>)
    ensures IsBlank(reply) ==> r == Some(default)
    ensures Lower(Strip(reply)) in {"y", "yes"} ==> r == Some(true)
    ensures Lower(Strip(reply)) in {"n", "no"} ==> r == Some(false)
    ensures r.None? <==> Lower(Strip(reply)) !in {"", "y", "yes", "n", "no"}
  {
    var c := Lower(Strip(reply));
    if c == "" then Some(default)
    else if c == "y" || c == "yes" then Some(true)
    else if c == "n" || c == "no" then Some(false)
    else None
  }

  /** A yes/no question over a console session: the answer of the first
      reply that is blank, yes or no, with the index of that reply. */
  function GetYesNo(replies: seq<string>, default: bool): (r: Option<(bool, nat)>)
    ensures r.Some? ==> r.value.1 < |replies| && YesNoAnswer(replies[r.value.1], default) == Some(r.value.0)
    ensures r.Some? ==> forall j :: 0 <= j < r.value.1 ==> YesNoAnswer(replies[j], default).None?
    ensures r.None? <==> forall j :: 0 <= j < |replies| ==> YesNoAnswer(replies[j], default).None?
  {
    Ask(reply => YesNoAnswer(reply, default), replies)
  }

  /** Yes/no answers ignore letter case and surrounding whitespace. */
  lemma {:induction false} YesNoIgnoresCaseAndPadding(reply: string, default: bool)
    ensures YesNoAnswer(Lower(reply), default) == YesNoAnswer(reply, default)
    ensures YesNoAnswer(Strip(reply), default) == YesNoAnswer(reply, default)
  {
    StripLower(reply);
    LowerIdempotent(Strip(reply));
    StripIdempotent(reply);
  }

  // ---------------------------------------------------------------------------
  // get_choice
  // ---------------------------------------------------------------------------

  /** One reply to a numbered menu: `options[int(reply) - 1]` when
      `0 <= int(reply) - 1 < len(options)`; None re-prompts. */
  function ChoiceAnswer<T>(reply: string, options: seq<T>): (r: Option<T>)
    ensures r.Some? ==> r.value in options
    ensures r.Some? <==> ParseInt(Strip(reply)).Some? && 1 <= ParseInt(Strip(reply)).value <= |options|
    ensures r.Some? ==> r.value == options[ParseInt(Strip(reply)).value - 1]
  {
    match ParseInt(Strip(reply))
    case None => None
    case Some(n) => if 0 <= n - 1 < |options| then Some(options[n - 1]) else None
  }

  /** A numbered menu over a console session: the option picked by the first
      reply that is a valid menu number, with the index of that reply. */
  function GetChoice<T>(replies: seq<string>, options: seq<T>): (r: Option<(T, nat)>)
    ensures r.Some? ==> r.value.0 in options
    ensures r.Some? ==> r.value.1 < |replies| && ChoiceAnswer(replies[r.value.1], options) == Some(r.value.0)
    ensures r.Some? ==> forall j :: 0 <= j < r.value.1 ==> ChoiceAnswer(replies[j], options).None?
    ensures |options| == 0 ==> r.None?
    ensures r.None? <==> forall j :: 0 <= j < |replies| ==> ChoiceAnswer(replies[j], options).None?
  {
    Ask(reply => ChoiceAnswer(reply, options), replies)
  }

  /** Typing the number an option is listed under selects that option. */
  lemma {:induction false} ChoiceByNumber<T>(options: seq<T>, k: nat)
    requires k < |options|
    ensures ChoiceAnswer(Decimal(k + 1), options) == Some(options[k])
  {
    var s := Decimal(k + 1);
    assert !IsSpace(s[0]) && !IsSpace(s[|s| - 1]) by {
      assert IsDigit(s[0]) && IsDigit(s[|s| - 1]);
    }
    StripUnpadded(s);
    ParseDecimal(k + 1);
  }

  // ---------------------------------------------------------------------------
  // get_input
  // ---------------------------------------------------------------------------

  /** A stripped reply, refused when it is empty. */
  function NonEmptyReply(reply: string): (r: Option<string>)
    ensures r.Some? <==> !IsBlank(reply)
    ensures r.Some? ==> r.value == Strip(reply)
  {
    var a := Strip(reply);
    if a != "" then Some(a) else None
  }

  /** `get_input(prompt, default, required)` over a console session: the
      answer and the index of the reply it came from. An empty `default`
      counts as no default, as it is falsy in Python. */
  function GetInput(replies: seq<string>, default: Option<string>, required: bool): (r: Option<(string, nat)>)
    ensures r.None? <==> |replies| == 0 || (!Truthy(default) && required && forall j :: 0 <= j < |replies| ==> IsBlank(replies[j]))
    ensures Truthy(default) && r.Some? ==> r.value.1 == 0
    ensures Truthy(default) && r.Some? && IsBlank(replies[0]) ==> r.value.0 == default.value
    ensures Truthy(default) && r.Some? && !IsBlank(replies[0]) ==> r.value.0 == Strip(replies[0])
    ensures !Truthy(default) && required && r.Some? ==>
              && r.value.1 < |replies|
              && r.value.0 != "" && r.value.0 == Strip(replies[r.value.1])
              && forall j :: 0 <= j < r.value.1 ==> IsBlank(replies[j])
    ensures !Truthy(default) && !required && r.Some? ==> r.value == (Strip(replies[0]), 0)
  {
    if Truthy(default) then
      if |replies| == 0 then None
      else
        var a := Strip(replies[0]);
        Some((if a != "" then a else default.value, 0))
    else if required then
      Ask(NonEmptyReply, replies)
    else if |replies| == 0 then None
    else Some((Strip(replies[0]), 0))
  }
}

=== FILE: rule_scenarios.dfy ===
/** Properties shared by the five rules, and the scenarios the rules are
    meant to handle, stated on concrete issues. */
module RuleScenarios {
  import opened Optional
  import opened Text
  import opened Tracker
  import opened AutomationRules

  /** Every rule issues at most one mutating request. */
  lemma EachRuleMutatesAtMostOnce(
    fetch: Option<Reply<Issue>>,
    list: Option<Reply<seq<Transition>>>,
    oldValue: string,
    newValue: string,
    timestamp: string,
    status: Option<int>
  )
    ensures MutationCount(AssignToReporter(fetch, status).trace) <= 1
    ensures MutationCount(AutoTransition(fetch, list, status).trace) <= 1
    ensures MutationCount(NotifyStatusChange(fetch, oldValue, newValue, timestamp, status).trace) == (if FetchOk(fetch) then 1 else 0)
    ensures MutationCount(AutoLabel(fetch, status).trace) <= 1
    ensures MutationCount(PriorityAlert(oldValue, newValue, fetch, timestamp, status).trace) <= 1
  {
    OnlyLastMutates(AssignToReporter(fetch, status).trace);
    OnlyLastMutates(AutoTransition(fetch, list, status).trace);
    OnlyLastMutates(NotifyStatusChange(fetch, oldValue, newValue, timestamp, status).trace);
    OnlyLastMutates(AutoLabel(fetch, status).trace);
    OnlyLastMutates(PriorityAlert(oldValue, newValue, fetch, timestamp, status).trace);
  }

  const Alice := User(Some("alice"), Some("Alice"))

  function ToDoIssue(assignee: Option<User>): Issue {
    Issue("To Do", assignee, Some("u1"), "Task", [], Some("Fix login"))
  }

  /** An unassigned "To Do" issue is not transitioned. */
  lemma UnassignedIsNotTransitioned(list: Option<Reply<seq<Transition>>>, post: Option<int>)
    ensures AutoTransition(Some(Reply(200, ToDoIssue(None))), list, post) == RuleRun([GetIssue], false)
  {
  }

  /** An assigned "To Do" issue offered "Start Progress" (id 11) is moved
      with transition 11. */
  lemma StartProgressApplied()
    ensures AutoTransition(Some(Reply(200, ToDoIssue(Some(Alice)))),
                           Some(Reply(200, [Transition(Some("11"), Some("Start Progress"))])),
                           Some(204))
            == RuleRun([GetIssue, GetTransitions, PostTransition("11")], true)
  {
    assert Lower("To Do") == "to do";
    assert Lower("Start Progress") == "start progress";
    ContainsSelf("progress");
    ContainsInRight("start ", "progress", "progress");
    assert "start " + "progress" == "start progress";
  }

  /** The settled-status test is equality: "In Progress Review" is not
      settled, so the rule goes on to list transitions. */
  lemma SettledIsEqualityNotSubstring(list: Option<Reply<seq<Transition>>>, post: Option<int>)
    ensures GetTransitions in
            AutoTransition(Some(Reply(200, ToDoIssue(Some(Alice)).(status := "In Progress Review"))),
                           list, post).trace
  {
    assert |Lower("In Progress Review")| == 18;
  }

  /** Reassigning an issue reported by u1 sends one PUT assigning u1. */
  lemma ReassignToU1()
    ensures AssignToReporter(Some(Reply(200, ToDoIssue(None))), Some(204))
            == RuleRun([GetIssue, PutFields(AssignPatch("u1"))], true)
  {
  }

  /** Raising the priority to "Medium" sends nothing at all. */
  lemma MediumPrioritySendsNothing(fetch: Option<Reply<Issue>>, timestamp: string, post: Option<int>)
    ensures PriorityAlert("Low", "Medium", fetch, timestamp, post) == RuleRun([], true)
  {
    assert Lower("Medium") == "medium";
  }

  /** A Bug gets the "bug" label once; the second run changes nothing. */
  lemma BugLabelledOnce()
    ensures var bug := ToDoIssue(None).(issueType := "Bug");
            && AutoLabel(Some(Reply(200, bug)), Some(204)).trace
               == [GetIssue, PutFields(EmptyPatch.(labels := Some(["bug"])))]
            && AutoLabel(Some(Reply(200, bug.(labels := ["bug"]))), Some(204)) == RuleRun([GetIssue], true)
  {
    assert Lower("Bug") == "bug";
    assert LabelFor("Bug") == Some("bug");
    var none: seq<string> := [];
    assert none + ["bug"] == ["bug"];
  }
}

=== FILE: scrub_rules.dfy ===
/** The identity scrubbing applied to each automation rule summary before it
    is saved: three keys are popped from every item, with a default, so an
    absent key is not an error. */
module ScrubRules {

  /** `keys_to_remove`, in the order the script pops them. */
  const KeysToRemove: seq<string> := ["authorAccountId", "actorAccountId", "ruleScopeARIs"]

  /** `item.pop(key, None)`: the item without `key`, unchanged when it has none. */
  function Pop<V>(item: map<string, V>, key: string): (r: map<string, V>)
    ensures key !in r
    ensures forall k :: k in r <==> k in item && k != key
    ensures forall k :: k in r ==> r[k] == item[k]
  {
    item - {key}
  }

  /** Popping a key the item does not carry leaves the item as it was. */
  lemma PopAbsent<V>(item: map<string, V>, key: string)
    requires key !in item
    ensures Pop(item, key) == item
  {
  }

  /** The inner loop: pop each key of `keys` in turn. */
  method PopAll<V>(item: map<string, V>, keys: seq<string>) returns (out: map<string, V>)
    ensures forall k :: k in keys ==> k !in out
    ensures forall k :: k in out <==> k in item && k !in keys
    ensures forall k :: k in out ==> out[k] == item[k]
  {
    out := item;
    var j := 0;
    while j < |keys|
      invariant 0 <= j <= |keys|
      invariant forall k :: k in keys[..j] ==> k !in out
      invariant forall k :: k in out <==> k in item && k !in keys[..j]
      invariant forall k :: k in out ==> out[k] == item[k]
    {
      assert keys[..j + 1] == keys[..j] + [keys[j]];
      out := Pop(out, keys[j]);
      j := j + 1;
    }
    assert keys[..j] == keys;
  }

  /** The outer loop over `data['data']`. */
  method ScrubItems<V>(items: seq<map<string, V>>) returns (out: seq<map<string, V>>)
    ensures |out| == |items|
    ensures forall i, k :: 0 <= i < |out| && k in KeysToRemove ==> k !in out[i]
    ensures forall i, k :: 0 <= i < |out| && k !in KeysToRemove ==>
              (k in out[i] <==> k in items[i])
    ensures forall i, k :: 0 <= i < |out| && k in out[i] ==> k in items[i] && out[i][k] == items[i][k]
  {
    out := [];
    var i := 0;
    while i < |items|
      invariant 0 <= i <= |items|
      invariant |out| == i
      invariant forall n, k :: 0 <= n < i && k in KeysToRemove ==> k !in out[n]
      invariant forall n, k :: 0 <= n < i && k !in KeysToRemove ==> (k in out[n] <==> k in items[n])
      invariant forall n, k :: 0 <= n < i && k in out[n] ==> k in items[n] && out[n][k] == items[n][k]
    {
      var item := PopAll(items[i], KeysToRemove);
      out := out + [item];
      i := i + 1;
    }
  }
}

=== FILE: text.dfy ===
/** The string primitives the scripts use, restricted to ASCII:
    `str.strip`, `str.lower`, `in` on strings, `str.split` with a one-character
    separator, `int()` on an already stripped reply, and `str(n)` for a natural. */
module Text {
  import opened Optional

  /** Python truthiness of an optional string: present and non-empty. */
  predicate Truthy(s: Option<string>) {
    s.Some? && s.value != ""
  }

  // ---------------------------------------------------------------------------
  // Whitespace and strip()
  // ---------------------------------------------------------------------------

  /** The ASCII characters `str.strip()` removes: space, tab, line feed,
      vertical tab, form feed, carriage return, and the four information
      separators U+001C to U+001F. */
  predicate IsSpace(c: char) {
    || c == ' ' || c == '\t' || c == '\n' || c == '\r' || c == '\U{000B}' || c == '\U{000C}'
    || ('\U{001C}' <= c <= '\U{001F}')
  }

  /** Every character is whitespace; the empty string is blank. */
  predicate IsBlank(s: string) {
    forall i :: 0 <= i < |s| ==> IsSpace(s[i])
  }

  /** Where `s.lstrip()` starts: the first index at or after `i` that does
      not hold whitespace, or `|s|` when there is none. */
  function SkipSpaces(s: string, i: nat): (k: nat)
    requires i <= |s|
    ensures i <= k <= |s|
    ensures forall j :: i <= j < k ==> IsSpace(s[j])
    ensures k < |s| ==> !IsSpace(s[k])
    decreases |s| - i
  {
    if i < |s| && IsSpace(s[i]) then SkipSpaces(s, i + 1) else i
  }

  /** Where `s[lo..e].rstrip()` ends: just after the last non-whitespace
      character of `s[lo..e]`, or `lo` when there is none. */
  function BackSpaces(s: string, lo: nat, e: nat): (k: nat)
    requires lo <= e <= |s|
    ensures lo <= k <= e
    ensures forall j :: k <= j < e ==> IsSpace(s[j])
    ensures k > lo ==> !IsSpace(s[k - 1])
    decreases e
  {
    if lo < e && IsSpace(s[e - 1]) then BackSpaces(s, lo, e - 1) else e
  }

  /** `s.strip()`: the part of `s` between its leading and trailing whitespace. */
  function Strip(s: string): (r: string)
    ensures r == [] <==> IsBlank(s)
    ensures r != [] ==> !IsSpace(r[0]) && !IsSpace(r[|r| - 1])
    ensures exists k :: OccursAt(s, r, k) && IsBlank(s[..k]) && IsBlank(s[k + |r|..])
  {
    var a := SkipSpaces(s, 0);
    var b := BackSpaces(s, a, |s|);
    assert OccursAt(s, s[a..b], a) && IsBlank(s[..a]) && IsBlank(s[b..]) by {
      forall j | 0 <= j < a ensures IsSpace(s[..a][j]) { assert s[..a][j] == s[j]; }
      forall j | 0 <= j < |s| - b ensures IsSpace(s[b..][j]) { assert s[b..][j] == s[b + j]; }
    }
    s[a..b]
  }

  lemma {:induction false} StripIdempotent(s: string)
    ensures Strip(Strip(s)) == Strip(s)
  {
    StripUnpadded(Strip(s));
  }

  /** A string with no whitespace at either end is its own strip(). */
  lemma StripUnpadded(s: string)
    requires s == [] || (!IsSpace(s[0]) && !IsSpace(s[|s| - 1]))
    ensures Strip(s) == s
  {
    assert s[0..|s|] == s;
  }

  /** Stripping never introduces a character. */
  lemma StripKeepsAbsent(s: string, c: char)
    requires c !in s
    ensures c !in Strip(s)
  {
  }

  // ---------------------------------------------------------------------------
  // lower()
  // ---------------------------------------------------------------------------

  function LowerChar(c: char): char {
    if 'A' <= c <= 'Z' then (c as int + 32) as char else c
  }

  /** `s.lower()` on ASCII letters; every other character is kept. */
  function Lower(s: string): (r: string)
    ensures |r| == |s|
    ensures forall i :: 0 <= i < |s| ==> r[i] == LowerChar(s[i])
  {
    seq(|s|, i requires 0 <= i < |s| => LowerChar(s[i]))
  }

  lemma LowerIdempotent(s: string)
    ensures Lower(Lower(s)) == Lower(s)
  {
  }

  /** Lowercasing never changes which characters are whitespace. */
  lemma LowerCharSpace(c: char)
    ensures IsSpace(LowerChar(c)) <==> IsSpace(c)
  {
  }

  /** Lowercasing a slice is slicing the lowercased string. */
  lemma LowerSlice(s: string, a: nat, b: nat)
    requires a <= b <= |s|
    ensures Lower(s)[a..b] == Lower(s[a..b])
  {
    forall i | 0 <= i < b - a ensures Lower(s)[a..b][i] == Lower(s[a..b])[i] {
      assert Lower(s)[a..b][i] == LowerChar(s[a + i]);
    }
  }

  /** Lowercasing commutes with `strip()`. */
  lemma {:induction false} StripLower(s: string)
    ensures Strip(Lower(s)) == Lower(Strip(s))
  {
    var a := SkipSpaces(s, 0);
    SkipSpacesLower(s, 0);
    BackSpacesLower(s, a, |s|);
    var b := BackSpaces(s, a, |s|);
    LowerSlice(s, a, b);
  }

  lemma {:induction false} SkipSpacesLower(s: string, i: nat)
    requires i <= |s|
    ensures SkipSpaces(Lower(s), i) == SkipSpaces(s, i)
    decreases |s| - i
  {
    if i < |s| {
      LowerCharSpace(s[i]);
      if IsSpace(s[i]) {
        SkipSpacesLower(s, i + 1);
      }
    }
  }

  lemma {:induction false} BackSpacesLower(s: string, lo: nat, e: nat)
    requires lo <= e <= |s|
    ensures BackSpaces(Lower(s), lo, e) == BackSpaces(s, lo, e)
    decreases e
  {
    if lo < e {
      LowerCharSpace(s[e - 1]);
      if IsSpace(s[e - 1]) {
        BackSpacesLower(s, lo, e - 1);
      }
    }
  }

  // ---------------------------------------------------------------------------
  // Substring test: Python's `sub in s`
  // ---------------------------------------------------------------------------

  ghost predicate OccursAt(s: string, sub: string, i: int) {
    0 <= i && i + |sub| <= |s| && s[i..i + |sub|] == sub
  }

  predicate Contains(s: string, sub: string)
    decreases |s|
  {
    if sub <= s then true
    else if |s| == 0 then false
    else Contains(s[1..], sub)
  }

  lemma {:induction false} ContainsIff(s: string, sub: string)
    ensures Contains(s, sub) <==> exists i :: OccursAt(s, sub, i)
    decreases |s|
  {
    assert OccursAt(s, sub, 0) <==> sub <= s by {
      if |sub| <= |s| { assert s[0..|sub|] == s[..|sub|]; }
    }
    if |s| == 0 {
      assert forall i :: OccursAt(s, sub, i) ==> i == 0;
    } else if !(sub <= s) {
      ContainsIff(s[1..], sub);
      forall i | 0 <= i
        ensures OccursAt(s[1..], sub, i) <==> OccursAt(s, sub, i + 1)
      {
        if i + |sub| <= |s| - 1 {
          assert s[1..][i..i + |sub|] == s[i + 1..i + 1 + |sub|];
        }
      }
      assert forall i :: OccursAt(s, sub, i) ==> i == 0 || OccursAt(s[1..], sub, i - 1);
    }
  }

  lemma ContainsSelf(s: string)
    ensures Contains(s, s)
  {
    assert s <= s;
  }

  lemma {:induction false} ContainsInLeft(s: string, t: string, sub: string)
    requires Contains(s, sub)
    ensures Contains(s + t, sub)
  {
    ContainsIff(s, sub);
    var i :| OccursAt(s, sub, i);
    assert (s + t)[i..i + |sub|] == s[i..i + |sub|];
    assert OccursAt(s + t, sub, i);
    ContainsIff(s + t, sub);
  }

  lemma {:induction false} ContainsInRight(s: string, t: string, sub: string)
    requires Contains(t, sub)
    ensures Contains(s + t, sub)
  {
    ContainsIff(t, sub);
    var i :| OccursAt(t, sub, i);
    assert (s + t)[|s| + i..|s| + i + |sub|] == t[i..i + |sub|];
    assert OccursAt(s + t, sub, |s| + i);
    ContainsIff(s + t, sub);
  }

  /** The concatenation of a list of pieces, as an f-string builds its text. */
  function Concat(pieces: seq<string>): string
    decreases |pieces|
  {
    if |pieces| == 0 then "" else pieces[0] + Concat(pieces[1..])
  }

  /** Every piece of a concatenation occurs in it. */
  lemma {:induction false} ContainsPiece(pieces: seq<string>, k: nat)
    requires k < |pieces|
    ensures Contains(Concat(pieces), pieces[k])
    decreases k
  {
    if k == 0 {
      ContainsSelf(pieces[0]);
      ContainsInLeft(pieces[0], Concat(pieces[1..]), pieces[0]);
    } else {
      ContainsPiece(pieces[1..], k - 1);
      ContainsInRight(pieces[0], Concat(pieces[1..]), pieces[k]);
    }
  }

  // ---------------------------------------------------------------------------
  // split() on one separator character, and its inverse join()
  // ---------------------------------------------------------------------------

  /** Number of occurrences of `c` in `s`. */
  function Count(s: string, c: char): nat {
    if |s| == 0 then 0 else (if s[0] == c then 1 else 0) + Count(s[1..], c)
  }

  /** `s.split(sep)`: the pieces between separators, empty pieces kept. */
  function Split(s: string, sep: char): (r: seq<string>)
    ensures |r| == Count(s, sep) + 1
    ensures forall k :: 0 <= k < |r| ==> sep !in r[k]
    decreases |s|
  {
    if |s| == 0 then [""]
    else
      var rest := Split(s[1..], sep);
      if s[0] == sep then [""] + rest
      else [[s[0]] + rest[0]] + rest[1..]
  }

  /** The parts in order with one separator between neighbours. */
  function Join(parts: seq<string>, sep: char): string
    decreases |parts|
  {
    if |parts| == 0 then ""
    else if |parts| == 1 then parts[0]
    else parts[0] + [sep] + Join(parts[1..], sep)
  }

  /** A join opens with the first part, followed by the separator when more
      parts follow, and closes with the last part. */
  lemma {:induction false} JoinFrame(parts: seq<string>, sep: char)
    requires |parts| > 0
    ensures var j := Join(parts, sep);
            && parts[0] <= j
            && (|parts| > 1 ==> |parts[0]| < |j| && j[|parts[0]|] == sep)
            && |parts[|parts| - 1]| <= |j|
            && j[|j| - |parts[|parts| - 1]|..] == parts[|parts| - 1]
    decreases |parts|
  {
    if |parts| > 1 {
      JoinFrame(parts[1..], sep);
      var j := Join(parts, sep);
      var t := Join(parts[1..], sep);
      assert parts[1..][|parts| - 2] == parts[|parts| - 1];
      assert j == parts[0] + [sep] + t;
      assert j[|j| - |t|..] == t;
    }
  }

  /** The separator occurs in a join exactly when there are at least two
      parts or one of the parts already holds it. */
  lemma JoinHasSeparator(parts: seq<string>, sep: char)
    ensures sep in Join(parts, sep) <==> |parts| > 1 || exists k :: 0 <= k < |parts| && sep in parts[k]
  {
  }

  /** Every piece is blank. */
  predicate AllBlank(pieces: seq<string>) {
    forall k :: 0 <= k < |pieces| ==> IsBlank(pieces[k])
  }

  lemma IsBlankCons(c: char, t: string)
    ensures IsBlank([c] + t) <==> IsSpace(c) && IsBlank(t)
  {
    var s := [c] + t;
    if IsSpace(c) && IsBlank(t) {
      forall i | 0 <= i < |s| ensures IsSpace(s[i]) {
        if i > 0 { assert s[i] == t[i - 1]; }
      }
    }
    if IsBlank(s) {
      assert IsSpace(s[0]);
      forall i | 0 <= i < |t| ensures IsSpace(t[i]) {
        assert t[i] == s[i + 1];
      }
    }
  }

  lemma AllBlankCons(h: string, t: seq<string>)
    ensures AllBlank([h] + t) <==> IsBlank(h) && AllBlank(t)
  {
    var s := [h] + t;
    if IsBlank(h) && AllBlank(t) {
      forall k | 0 <= k < |s| ensures IsBlank(s[k]) {
        if k > 0 { assert s[k] == t[k - 1]; }
      }
    }
    if AllBlank(s) {
      assert IsBlank(s[0]);
      forall k | 0 <= k < |t| ensures IsBlank(t[k]) {
        assert t[k] == s[k + 1];
      }
    }
  }

  /** Splitting on a whitespace separator: the string is blank exactly when
      every piece is. */
  lemma {:induction false} BlankIffPiecesBlank(s: string, sep: char)
    requires IsSpace(sep)
    ensures IsBlank(s) <==> AllBlank(Split(s, sep))
    decreases |s|
  {
    if |s| > 0 {
      var rest := Split(s[1..], sep);
      BlankIffPiecesBlank(s[1..], sep);
      IsBlankCons(s[0], s[1..]);
      assert s == [s[0]] + s[1..];
      if s[0] == sep {
        assert Split(s, sep) == [""] + rest;
        AllBlankCons("", rest);
      } else {
        var first := [s[0]] + rest[0];
        assert Split(s, sep) == [first] + rest[1..];
        IsBlankCons(s[0], rest[0]);
        AllBlankCons(first, rest[1..]);
        AllBlankCons(rest[0], rest[1..]);
        assert rest == [rest[0]] + rest[1..];
      }
    }
  }

  /** Joining the pieces of a split gives back the original string. */
  lemma {:induction false} JoinSplit(s: string, sep: char)
    ensures Join(Split(s, sep), sep) == s
    decreases |s|
  {
    if |s| > 0 {
      var rest := Split(s[1..], sep);
      JoinSplit(s[1..], sep);
      if s[0] == sep {
        assert Split(s, sep) == [""] + rest;
        assert s == [sep] + s[1..];
      } else {
        var r := Split(s, sep);
        assert r == [[s[0]] + rest[0]] + rest[1..];
        if |rest| == 1 {
          assert r[1..] == [];
        } else {
          assert r[1..] == rest[1..];
          assert Join(rest, sep) == rest[0] + [sep] + Join(rest[1..], sep);
        }
      }
    }
  }

  /** Splitting a join of separator-free pieces gives back the pieces. */
  lemma {:induction false} SplitJoin(parts: seq<string>, sep: char)
    requires |parts| >= 1
    requires forall k :: 0 <= k < |parts| ==> sep !in parts[k]
    ensures Split(Join(parts, sep), sep) == parts
    decreases |parts|, |parts[0]|
  {
    var p := parts[0];
    if |p| == 0 {
      if |parts| > 1 {
        SplitJoin(parts[1..], sep);
        assert Join(parts, sep) == [sep] + Join(parts[1..], sep);
        assert Join(parts, sep)[1..] == Join(parts[1..], sep);
      }
    } else {
      var tail := [p[1..]] + parts[1..];
      assert sep !in p[1..] by {
        forall k | 0 <= k < |p[1..]| ensures p[1..][k] != sep { assert p[1..][k] == p[k + 1]; }
      }
      assert forall k :: 0 <= k < |tail| ==> sep !in tail[k] by {
        forall k | 0 <= k < |tail| ensures sep !in tail[k] {
          if k > 0 { assert tail[k] == parts[k]; }
        }
      }
      SplitJoin(tail, sep);
      var s := Join(parts, sep);
      assert s == [p[0]] + Join(tail, sep) by {
        if |parts| == 1 {
          assert tail == [p[1..]];
          assert p == [p[0]] + p[1..];
        } else {
          assert tail[1..] == parts[1..];
          assert p == [p[0]] + p[1..];
          assert s == p + [sep] + Join(parts[1..], sep);
          assert Join(tail, sep) == p[1..] + [sep] + Join(parts[1..], sep);
        }
      }
      assert s[0] == p[0] && p[0] != sep by { assert p[0] in p; }
      assert s[1..] == Join(tail, sep);
      assert [p[0]] + p[1..] == p;
    }
  }

  // ---------------------------------------------------------------------------
  // Decimal integers: int() on a stripped reply, and str(n)
  // ---------------------------------------------------------------------------

  predicate IsDigit(c: char) {
    '0' <= c <= '9'
  }

  predicate AllDigits(s: string) {
    |s| > 0 && forall i :: 0 <= i < |s| ==> IsDigit(s[i])
  }

  /** Value of a run of decimal digits. */
  function DigitsValue(s: string): nat
    requires forall i :: 0 <= i < |s| ==> IsDigit(s[i])
    decreases |s|
  {
    if |s| == 0 then 0
    else
      assert IsDigit(s[|s| - 1]);
      DigitsValue(s[..|s| - 1]) * 10 + (s[|s| - 1] as int - '0' as int)
  }

  /** `int(s)` for a string that carries no surrounding whitespace: an optional
      sign followed by at least one ASCII digit. Anything else is None, which
      is where Python raises ValueError. */
  function ParseInt(s: string): (r: Option<int>)
    ensures r.Some? <==>
              AllDigits(s) || (|s| > 0 && (s[0] == '-' || s[0] == '+') && AllDigits(s[1..]))
    ensures r.Some? && s[0] == '-' ==> r.value <= 0
    ensures r.Some? && s[0] != '-' ==> r.value >= 0
    ensures r.Some? && AllDigits(s) ==> r.value == DigitsValue(s)
    ensures r.Some? && s[0] == '+' ==> r.value == DigitsValue(s[1..])
    ensures r.Some? && s[0] == '-' ==> r.value == -(DigitsValue(s[1..]) as int)
  {
    if |s| > 0 && (s[0] == '-' || s[0] == '+') then
      if AllDigits(s[1..]) then
        var v: int := DigitsValue(s[1..]);
        Some(if s[0] == '-' then -v else v)
      else None
    else if AllDigits(s) then Some(DigitsValue(s))
    else None
  }

  function DigitChar(d: nat): char
    requires d < 10
  {
    ('0' as int + d) as char
  }

  /** The decimal digits of a natural, with no leading zero (as `str(n)`). */
  function Decimal(n: nat): (r: string)
    ensures AllDigits(r)
    ensures r[0] == '0' <==> n == 0
    ensures n == 0 ==> r == "0"
    decreases n
  {
    if n < 10 then [DigitChar(n)]
    else
      var front := Decimal(n / 10);
      assert (front + [DigitChar(n % 10)])[0] == front[0];
      front + [DigitChar(n % 10)]
  }

  /** Reading back a printed natural gives the natural. */
  lemma {:induction false} ParseDecimal(n: nat)
    ensures ParseInt(Decimal(n)) == Some(n)
  {
    DecimalValue(n);
  }

  /** A leading zero does not change the value of a run of digits. */
  lemma {:induction false} LeadingZeroValue(d: string)
    requires forall i :: 0 <= i < |d| ==> IsDigit(d[i])
    ensures DigitsValue("0" + d) == DigitsValue(d)
    decreases |d|
  {
    var s := "0" + d;
    if |d| == 0 {
      assert s[..0] == "";
    } else {
      assert s[..|s| - 1] == "0" + d[..|d| - 1];
      assert s[|s| - 1] == d[|d| - 1];
      LeadingZeroValue(d[..|d| - 1]);
    }
  }

  /** `int()` reads "0" + d and "+" + d as it reads d. */
  lemma {:induction false} ParseIgnoresPlusAndLeadingZero(d: string)
    requires AllDigits(d)
    ensures ParseInt("0" + d) == ParseInt(d)
    ensures ParseInt("+" + d) == ParseInt(d)
  {
    assert ("+" + d)[1..] == d;
    assert AllDigits("0" + d) by {
      forall i | 0 <= i < |d| + 1 ensures IsDigit(("0" + d)[i]) {
        if i > 0 { assert ("0" + d)[i] == d[i - 1]; }
      }
    }
    LeadingZeroValue(d);
  }

  /** The readings the scripts rely on for signed and padded numbers. */
  lemma ParseExamples()
    ensures ParseInt("+3") == Some(3)
    ensures ParseInt("03") == Some(3)
    ensures ParseInt("-0") == Some(0)
  {
    assert "+3"[1..] == "3";
    assert "-0"[1..] == "0";
    assert "3"[..0] == "" && "0"[..0] == "";
    assert "03"[..1] == "0";
  }

  /** A minus sign before a printed natural reads back as its negation. */
  lemma {:induction false} ParseNegated(n: nat)
    ensures ParseInt("-" + Decimal(n)) == Some(-(n as int))
  {
    var s := "-" + Decimal(n);
    assert s[1..] == Decimal(n);
    DecimalValue(n);
  }

  lemma {:induction false} DecimalValue(n: nat)
    ensures DigitsValue(Decimal(n)) == n
    decreases n
  {
    if n >= 10 {
      DecimalValue(n / 10);
      var s := Decimal(n);
      assert s[..|s| - 1] == Decimal(n / 10);
    } else {
      assert Decimal(n)[..0] == [];
    }
  }

  /** Distinct naturals print differently. */
  lemma DecimalInjective(a: nat, b: nat)
    requires Decimal(a) == Decimal(b)
    ensures a == b
  {
    DecimalValue(a);
    DecimalValue(b);
  }
}

=== FILE: tracker.dfy ===
/** What the scripts exchange with the issue tracker, reduced to the fields they
    read and write: the issue snapshot a GET returns, a workflow transition, the
    field patch a PUT sends, and the abstract requests a script issues. */
module Tracker {
  import opened Optional
  import opened Adf

  /** An `assignee` or `reporter` object; either key may be missing. */
  datatype User = User(accountId: Option<string>, displayName: Option<string>)

  /** The parts of `fields` that the automation rules read.
      - `status` is `fields.status.name`, "" when missing;
      - `assignee` is None when the key is missing, null or an empty object
        (all three are falsy in Python);
      - `reporterAccountId` is `fields.reporter.accountId`;
      - `issueType` is `fields.issuetype.name`, "" when missing;
      - `labels` is `fields.labels`, [] when missing. */
  datatype Issue = Issue(
    status: string,
    assignee: Option<User>,
    reporterAccountId: Option<string>,
    issueType: string,
    labels: seq<string>,
    summary: Option<string>)

  /** One entry of the `transitions` list; `id` and `name` may be missing. */
  datatype Transition = Transition(id: Option<string>, name: Option<string>)

  /** An HTTP response: its status code and its decoded body. */
  datatype Reply<T> = Reply(status: int, body: T)

  /** The `fields` object of a PUT to an issue; a None entry is a key the
      patch does not carry, which the tracker leaves untouched. */
  datatype FieldPatch = FieldPatch(
    assignee: Option<string>,
    labels: Option<seq<string>>,
    summary: Option<string>,
    description: Option<Doc>)

  const EmptyPatch := FieldPatch(None, None, None, None)

  /** The keys a patch carries. */
  function PatchFields(p: FieldPatch): (keys: set<string>)
    ensures keys <= {"assignee", "labels", "summary", "description"}
    ensures keys == {} <==> p == EmptyPatch
  {
    (if p.assignee.Some? then {"assignee"} else {})
    + (if p.labels.Some? then {"labels"} else {})
    + (if p.summary.Some? then {"summary"} else {})
    + (if p.description.Some? then {"description"} else {})
  }

  /** The requests a script may send about the one issue it works on. */
  datatype Request =
    | GetIssue
    | PutFields(patch: FieldPatch)
    | GetTransitions
    | PostTransition(id: string)
    | PostComment(text: string)

  predicate IsMutation(r: Request) {
    r.PutFields? || r.PostTransition? || r.PostComment?
  }

  /** The one status code a script accepts as success for a mutation:
      "no content" for updates and transitions, "created" for comments. */
  function SuccessStatus(r: Request): int
    requires IsMutation(r)
  {
    if r.PostComment? then 201 else 204
  }

  /** A mutation succeeded: a reply arrived (a request that raised gives
      None) and its status is exactly the success status of that request. */
  predicate Succeeded(r: Request, status: Option<int>)
    requires IsMutation(r)
  {
    status.Some? && status.value == SuccessStatus(r)
  }

  /** A fetch succeeded: a reply arrived and its status is 200. */
  predicate FetchOk<T>(reply: Option<Reply<T>>) {
    reply.Some? && reply.value.status == 200
  }

  /** Number of mutating requests in a trace. */
  function MutationCount(trace: seq<Request>): nat
    decreases |trace|
  {
    if |trace| == 0 then 0
    else (if IsMutation(trace[0]) then 1 else 0) + MutationCount(trace[1..])
  }

  /** A trace whose only possible mutation is its last request has at most
      one mutation. */
  lemma {:induction false} OnlyLastMutates(trace: seq<Request>)
    requires forall k :: 0 <= k < |trace| - 1 ==> !IsMutation(trace[k])
    ensures MutationCount(trace) <= 1
    ensures MutationCount(trace) == 1 <==> |trace| > 0 && IsMutation(trace[|trace| - 1])
    decreases |trace|
  {
    if |trace| > 1 {
      OnlyLastMutates(trace[1..]);
      assert trace[1..][|trace| - 2] == trace[|trace| - 1];
    }
  }
}

=== FILE: transition_issue.dfy ===
/** The interactive transition script: list the issue's transitions, let the
    user pick one by its menu number, and apply it. */
module TransitionIssue {
  import opened Optional
  import opened Text
  import opened Tracker

  /** A listed transition; the script reads both keys unconditionally. */
  datatype Listed = Listed(id: string, name: string)

  /** How the script ends. */
  datatype Outcome =
    | FetchFailed           // the listing was not answered with 200
    | NoTransitions         // the listing was empty
    | InvalidChoice         // the reply was not a usable index
    | Applied(chosen: Listed)   // the POST was answered with 204
    | Rejected(chosen: Listed)  // the POST was answered with anything else

  datatype ScriptRun = ScriptRun(trace: seq<Request>, outcome: Outcome)

  /** Python's `xs[i]`: a negative index counts from the end, and an index
      outside `-len(xs) .. len(xs) - 1` raises IndexError (None here). */
  function PyIndex<T>(xs: seq<T>, i: int): (r: Option<T>)
    ensures r.Some? <==> -|xs| <= i < |xs|
    ensures 0 <= i < |xs| ==> r == Some(xs[i])
    ensures -|xs| <= i < 0 ==> r == Some(xs[|xs| + i])
  {
    if 0 <= i < |xs| then Some(xs[i])
    else if -|xs| <= i < 0 then Some(xs[|xs| + i])
    else None
  }

  /** The transition a menu reply selects: the reply read as a number n
      picks entry n - 1 with Python's indexing, so 0 and negative numbers
      count from the end. None where the script prints "Invalid choice."
      (the reply is not an integer, or the index is out of range). */
  function Select(ts: seq<Listed>, choice: string): (r: Option<Listed>)
    ensures r.Some? <==> ParseInt(Strip(choice)).Some?
                         && 1 - |ts| <= ParseInt(Strip(choice)).value <= |ts|
    ensures r.Some? ==> r.value in ts
    ensures r.Some? && ParseInt(Strip(choice)).value >= 1 ==>
              r.value == ts[ParseInt(Strip(choice)).value - 1]
    ensures r.Some? && ParseInt(Strip(choice)).value < 1 ==>
              r.value == ts[|ts| + ParseInt(Strip(choice)).value - 1]
  {
    match ParseInt(Strip(choice))
    case None => None
    case Some(c) => PyIndex(ts, c - 1)
  }

  /** Typing "0" does not fail: it selects the last transition. */
  lemma ZeroSelectsLast(ts: seq<Listed>)
    requires |ts| > 0
    ensures Select(ts, "0") == Some(ts[|ts| - 1])
  {
    StripUnpadded("0");
    assert AllDigits("0");
    assert DigitsValue("0") == 0 by { assert "0"[..0] == ""; }
  }

  /** Typing the number a transition is listed under selects it. */
  lemma {:induction false} NumberSelectsListed(ts: seq<Listed>, k: nat)
    requires k < |ts|
    ensures Select(ts, Decimal(k + 1)) == Some(ts[k])
  {
    var s := Decimal(k + 1);
    assert !IsSpace(s[0]) && !IsSpace(s[|s| - 1]) by {
      assert IsDigit(s[0]) && IsDigit(s[|s| - 1]);
    }
    StripUnpadded(s);
    ParseDecimal(k + 1);
  }

  /** Typing "-k" does not fail either: it selects the transition k + 1
      places from the end of the list. */
  lemma {:induction false} MinusSelectsFromEnd(ts: seq<Listed>, k: nat)
    requires k < |ts|
    ensures Select(ts, "-" + Decimal(k)) == Some(ts[|ts| - k - 1])
  {
    var s := "-" + Decimal(k);
    assert s[|s| - 1] == Decimal(k)[|Decimal(k)| - 1];
    assert IsDigit(s[|s| - 1]);
    StripUnpadded(s);
    ParseNegated(k);
  }

  /** The script from the transitions fetch onwards. The transitions request
      is not wrapped in a handler, so its reply is always present. */
  function RunTransition(list: Reply<seq<Listed>>, choice: string, postStatus: int): (r: ScriptRun)
    ensures |r.trace| > 0 && r.trace[0] == GetTransitions
    ensures list.status != 200 ==> r == ScriptRun([GetTransitions], FetchFailed)
    ensures list.status == 200 && list.body == [] ==> r == ScriptRun([GetTransitions], NoTransitions)
    ensures (exists k :: 0 <= k < |r.trace| && r.trace[k].PostTransition?) <==>
              list.status == 200 && Select(list.body, choice).Some?
    ensures r.outcome == InvalidChoice <==>
              list.status == 200 && list.body != [] && Select(list.body, choice).None?
    ensures list.status == 200 && list.body != [] && Select(list.body, choice).None? ==>
              r == ScriptRun([GetTransitions], InvalidChoice)
    ensures list.status == 200 && Select(list.body, choice).Some? ==>
              && r.trace == [GetTransitions, PostTransition(Select(list.body, choice).value.id)]
              && (r.outcome.Applied? <==> postStatus == 204)
  {
    if list.status != 200 then ScriptRun([GetTransitions], FetchFailed)
    else if list.body == [] then ScriptRun([GetTransitions], NoTransitions)
    else
      match Select(list.body, choice)
      case None => ScriptRun([GetTransitions], InvalidChoice)
      case Some(t) =>
        var trace := [GetTransitions, PostTransition(t.id)];
        assert trace[1].PostTransition?;
        ScriptRun(trace, if postStatus == 204 then Applied(t) else Rejected(t))
  }

  /** A failed or empty listing ends the script before the choice is read:
      the run is the same whatever the user would have typed. */
  lemma NoPromptWithoutTransitions(list: Reply<seq<Listed>>, c1: string, c2: string, s1: int, s2: int)
    requires list.status != 200 || list.body == []
    ensures RunTransition(list, c1, s1) == RunTransition(list, c2, s2)
    ensures MutationCount(RunTransition(list, c1, s1).trace) == 0
  {
    assert MutationCount([GetTransitions]) == 0 by {
      assert [GetTransitions][1..] == [];
    }
  }
}

=== FILE: update_issue.dfy ===
/** The issue updater: a menu choice decides which of summary and
    description are asked for, and only non-empty answers go into the PUT. */
module UpdateIssue {
  import opened Optional
  import opened Text
  import opened Adf
  import opened Tracker

  /** Menu answers (already stripped) that ask for a new summary / description. */
  const SummaryChoices: set<string> := {"1", "3"}
  const DescriptionChoices: set<string> := {"2", "3"}

  /** The `fields` patch built from the choice and the two answers; an answer
      is only read when the choice asks for it. */
  function BuildUpdatePatch(choice: string, summaryAnswer: string, descriptionAnswer: string): (p: FieldPatch)
    ensures PatchFields(p) <= {"summary", "description"}
    ensures "summary" in PatchFields(p) <==> choice in SummaryChoices && !IsBlank(summaryAnswer)
    ensures "description" in PatchFields(p) <==> choice in DescriptionChoices && !IsBlank(descriptionAnswer)
    ensures p.summary.Some? ==> p.summary.value == Strip(summaryAnswer)
    ensures p.description.Some? ==>
              && IsDocV1(p.description.value)
              && Texts(p.description.value) == [Strip(descriptionAnswer)]
  {
    var summary := Strip(summaryAnswer);
    var description := Strip(descriptionAnswer);
    FieldPatch(
      None,
      None,
      if choice in SummaryChoices && summary != "" then Some(summary) else None,
      if choice in DescriptionChoices && description != "" then Some(DocOfLines([description])) else None)
  }

  /** A choice outside the menu asks for nothing and builds an empty patch,
      whatever was typed afterwards. */
  lemma OtherChoiceIsEmpty(choice: string, s: string, d: string)
    requires choice !in SummaryChoices + DescriptionChoices
    ensures BuildUpdatePatch(choice, s, d) == EmptyPatch
  {
  }

  /** The requests sent, and whether success was reported. */
  datatype UpdateRun = UpdateRun(trace: seq<Request>, success: bool)

  /** The script after the issue key was read. The PUT is not wrapped in a
      handler, so its status is always present. */
  function RunUpdate(choice: string, summaryAnswer: string, descriptionAnswer: string, putStatus: int): (r: UpdateRun)
    ensures r.trace == [] <==> PatchFields(BuildUpdatePatch(choice, summaryAnswer, descriptionAnswer)) == {}
    ensures r.trace != [] ==> r.trace == [PutFields(BuildUpdatePatch(choice, summaryAnswer, descriptionAnswer))]
    ensures r.success <==> r.trace != [] && putStatus == 204
  {
    var patch := BuildUpdatePatch(choice, summaryAnswer, descriptionAnswer);
    if patch == EmptyPatch then UpdateRun([], false)
    else UpdateRun([PutFields(patch)], putStatus == 204)
  }
}
